=== FILE: README.md ===
# Dynamic form builder — a Dafny model

This project models the core of a browser form builder written in TypeScript
with React and Redux. A user builds a form from typed fields (text, number,
textarea, select, radio, checkbox, date). Each field has validation rules and
may be *derived*, taking its value from parent fields. Forms are saved in a
list and opened in a preview, where values are entered, validated and
submitted.

The parts modelled are:

- **Store** (`store.dfy`): the Redux slice's reducers, each a pure
  `State -> State` function. These are `setCurrentForm`, `addField` (push, then
  a stable sort by `order`), `updateField`, `removeField`, `reorderFields`
  (with `Array.prototype.splice`'s index rules), `saveForm` (an upsert by id),
  `loadForm`, `deleteForm`, `setPreviewMode` and `clearCurrentForm`.
- **Validation** (`validation.dfy`): `validateField` with each rule kind. The
  email regular expression is given both as a pattern and as a scan, and the
  two are proved equivalent.
- **Preview** (`preview.dfy`): a session of values, errors and touched flags.
  It covers the initial values, the derived "Age" field, change, blur and
  submit.
- **Editor** (`editor.dfy`): the form editor page's own handlers. These are
  deleting a field with renumbering, saving an edited or a new field, and
  saving the form under its trimmed name.
- **Field dialog** (`field_dialog.dfy`): the field configuration dialog's
  draft. It covers the save guard, adding and removing rules and options, and
  toggling parent fields.
- **Summary** (`summary.dfy`): the saved-forms page's per-type counts,
  required and derived counts, and the delete confirmation.
- **Shared pieces**: `common.dfy` holds the JavaScript array operations the
  code relies on. `strings.dfy` holds the string operations: `trim`,
  integer `Number()` parsing and printing, and `includes`. `types.dfy` holds
  the data model.

Several things outside the program's control become parameters:

- the clock (new ids, creation times, today's year);
- what browser storage held at start-up;
- the user's inputs.

Values are JavaScript `string | number | boolean`, with numbers restricted to
integers. A missing object key is a missing map key or `None`.

## Model

| member | source | states |
|---|---|---|
| Common.FilterMembers | src/store/formBuilderSlice.ts:36 | `filter` keeps exactly the elements passing the test: every kept element came from the input, and every passing input element is kept |
| Common.FilterConcat | src/store/formBuilderSlice.ts:36 | filtering distributes over concatenation, so the kept fields stay in their relative order |
| Common.FilterKeepsAll | src/store/formBuilderSlice.ts:71 | filtering returns the list unchanged exactly when every element passes |
| Common.CountWhere | src/pages/CreateForm.tsx:197-200 | `filter(p).length` is at most the length; it equals the length exactly when all pass and is 0 exactly when none pass |
| Common.IndexWhere | src/store/formBuilderSlice.ts:26-27 | `findIndex` returns the first index whose element matches, and "not found" exactly when no element matches |
| Common.FindWhere | src/store/formBuilderSlice.ts:65 | `find` returns the first matching element of the list (no element before it matches), and nothing exactly when no element matches |
| Common.RemoveAtSpec | src/components/FieldConfigDialog.tsx:153-158 | dropping index i by filtering on the index removes exactly element i and keeps the rest in order; an index outside the list changes nothing |
| Common.SpliceStart | src/store/formBuilderSlice.ts:43-44 | `splice`'s start is clamped to the list: a negative start counts from the end and stops at 0, and a start past the end becomes the length |
| Common.InsertAt | src/store/formBuilderSlice.ts:44 | inserting with `splice(start, 0, x)` puts x at the normalised start, with the elements before and after it unchanged |
| Common.Move | src/store/formBuilderSlice.ts:42-44 | removing at `fromIndex` and inserting at `toIndex` keeps the length and puts the moved element at the normalised target index |
| Common.MovePermutes | src/store/formBuilderSlice.ts:42-44 | a move is a permutation: the multiset of elements is unchanged |
| Common.MoveBack | src/store/formBuilderSlice.ts:42-44 | moving an element back from `toIndex` to `fromIndex` restores the original list |
| Common.WriteAllSpec | src/pages/PreviewForm.tsx:42-59 | a `forEach` of keyed writes yields the old keys plus the written ones; unwritten keys keep their values; each key holds its last write |
| Common.WriteAllOverride | src/pages/PreviewForm.tsx:78 | writing into an object equals spreading the old object under the writes made into an empty one |
| Common.WriteAllTwice | src/pages/PreviewForm.tsx:68-82 | replaying the same writes a second time changes nothing |
| Strings.TrimStart | src/pages/CreateForm.tsx:104 | `trimStart` drops exactly a whitespace prefix and stops at a character that is not whitespace |
| Strings.TrimEnd | src/pages/CreateForm.tsx:104 | `trimEnd` drops exactly a whitespace suffix and stops at a character that is not whitespace |
| Strings.Trim | src/pages/CreateForm.tsx:104-107 | the trimmed text is a slice of the input with only whitespace cut off on either side; it is empty exactly when the input is all whitespace, and otherwise its first and last characters are not whitespace |
| Strings.TrimNoop | src/components/FieldConfigDialog.tsx:161-164 | trimming text that has no surrounding whitespace returns it unchanged |
| Strings.NatToString | src/pages/PreviewForm.tsx:78 | a natural number prints as a non-empty string of digits with no leading zero, unless it is the single digit 0 |
| Strings.IntToString | src/pages/PreviewForm.tsx:78 | an integer prints with a leading digit exactly when it is not negative |
| Strings.ParseInteger | src/pages/PreviewForm.tsx:97 | `Number(text)` reads blank or whitespace-only text as 0 |
| Strings.IntToStringRoundTrip | src/pages/PreviewForm.tsx:97-98 | `Number(String(n)) == n` for every integer n |
| Strings.ParseNatToString | src/pages/PreviewForm.tsx:97-98 | reading back the digits a natural number prints as gives that number |
| Strings.IndexOf | src/pages/PreviewForm.tsx:107 | the scan that splits an address at its `@` when the email pattern is matched by hand (see Validation.EmailPatternIsScan): the first position of a character, and none exactly when the character does not occur |
| Strings.Includes | src/pages/PreviewForm.tsx:72 | `includes(sub)` holds exactly when sub occurs at some position |
| Types.MergeLaws | src/store/formBuilderSlice.ts:28 | spreading a whole field over another gives that field; spreading no keys keeps the old field |
| Types.Reindex | src/store/formBuilderSlice.ts:47-49 | after renumbering, every field's order is its position and nothing else about any field changes |
| Types.ReindexIdempotent | src/pages/CreateForm.tsx:67-71 | renumbering a list whose orders already are positions leaves it unchanged |
| Validation.EmailPatternIsScan | src/pages/PreviewForm.tsx:107-108 | the email regular expression matches exactly the text with no whitespace, one `@` after a non-empty start, and a `.` with text on both sides after it |
| Validation.RulesMessages | src/pages/PreviewForm.tsx:89-126 | the rules produce at most two messages each, and none exactly when no rule fires |
| Validation.ValidateField | src/pages/PreviewForm.tsx:86-129 | a field with no rules has no errors; errors are empty exactly when every rule is silent |
| Validation.RulesMessagesConcat | src/pages/PreviewForm.tsx:89 | the messages of a rule list are the first part's messages followed by the second's, in rule order |
| Validation.CustomRuleSilent | src/pages/PreviewForm.tsx:122-124 | a custom rule anywhere in the list adds nothing |
| Validation.RequiredRule | src/pages/PreviewForm.tsx:91-95 | `required` fires exactly on a missing, falsy or whitespace-only value; it reports the rule's message, or the default when that is empty |
| Validation.LengthRules | src/pages/PreviewForm.tsx:96-105 | min/max length fire only on strings and exactly when the length is below/above `Number(rule.value)` |
| Validation.LengthBoundsInclusive | src/pages/PreviewForm.tsx:97-102 | a string whose length equals the bound passes both min and max length, whether the bound is a number or its text |
| Validation.EmailRule | src/pages/PreviewForm.tsx:106-111 | `email` is silent on falsy values; on non-empty text it fires exactly when the address does not match |
| Validation.EmailAccepted | src/pages/PreviewForm.tsx:107-108 | "a@b.co" passes the email rule |
| Validation.EmailRejected | src/pages/PreviewForm.tsx:107-109 | "not-an-email" fails the email rule with the rule's message or the default |
| Validation.PasswordRule | src/pages/PreviewForm.tsx:112-121 | on non-empty text, `password` reports "too short" below 8 characters and "no number" without a digit, in that order, and ignores the rule's message |
| Validation.PasswordExamples | src/pages/PreviewForm.tsx:112-121 | "abc" gets both messages, "abcdefgh" only the digit one, "abcd1234" none, and an empty value none |
| Preview.Open | src/pages/PreviewForm.tsx:39-62 | opening a form replaces the values with its initial values and keeps errors and touched flags; with no form nothing changes |
| Preview.InitialValuesKeys | src/pages/PreviewForm.tsx:41-59 | the initial value map has a key exactly for the ids of fields other than a radio field with neither default nor options |
| Preview.InitialValuesEntry | src/pages/PreviewForm.tsx:41-59 | with unique ids, a field that gets an initial value holds exactly its own entry |
| Preview.InitialValuesSpec | src/pages/PreviewForm.tsx:43-56 | with unique ids, the initial value is the default when there is one, otherwise false for a checkbox, the first option for a radio with options, and "" for any other type |
| Preview.DeriveSpec | src/pages/PreviewForm.tsx:64-84 | deriving changes or adds only the values of derived "Age" fields with a non-empty text first parent, and each such field receives its age text |
| Preview.DeriveEntryReadsParent | src/pages/PreviewForm.tsx:72-74 | what deriving writes for a field depends on the value map only through the field's first parent |
| Preview.DeriveFixedPoint | src/pages/PreviewForm.tsx:64-84 | when no derived field's first parent is itself derived, deriving a second time changes nothing |
| Preview.AgeExample | src/pages/PreviewForm.tsx:75-78 | with today's year 2024, a birth date of 2000-01-01 gives the age "24" |
| Preview.FieldById | src/pages/PreviewForm.tsx:135 | finds the first field of the form with the id (no earlier field has it), and none exactly when there is no form or no field has it |
| Preview.FieldChange | src/pages/PreviewForm.tsx:131-140 | a change sets that one value and keeps the others; the field's errors are recomputed only when the field exists; touched flags are kept |
| Preview.FieldChangeAgrees | src/pages/PreviewForm.tsx:131-140 | after a change to an existing field, its stored errors are the validation of its stored value |
| Preview.FieldBlur | src/pages/PreviewForm.tsx:142-144 | a blur marks that one field touched and changes nothing else |
| Preview.ErrorMapKeys | src/pages/PreviewForm.tsx:152-161 | an error map built from any per-field messages has a key exactly for the ids of fields with messages |
| Preview.ErrorMapEntries | src/pages/PreviewForm.tsx:152-161 | every entry of such a map is non-empty; with unique ids it is that field's messages |
| Preview.ErrorMapEmpty | src/pages/PreviewForm.tsx:152-161 | such a map is empty exactly when no field has a message |
| Preview.SubmitErrorsKeys | src/pages/PreviewForm.tsx:152-161 | the submitted error map has a key exactly for the ids of fields whose validation fails |
| Preview.SubmitErrorsEntries | src/pages/PreviewForm.tsx:155-161 | every error entry is non-empty; with unique ids it is that field's messages |
| Preview.TouchAllSpec | src/pages/PreviewForm.tsx:164-170 | after submit, exactly the form's field ids are touched |
| Preview.SubmitSpec | src/pages/PreviewForm.tsx:146-176 | submit without a form does nothing; with one, it replaces errors and touched flags; it succeeds exactly when every field validates, that is when the error map is empty |
| Store.InitialState | src/store/formBuilderSlice.ts:5-9 | the store starts with no current form, the stored forms, and preview off |
| Store.SetCurrentForm | src/store/formBuilderSlice.ts:15-17 | replaces the current form and nothing else |
| Store.SetPreviewMode | src/store/formBuilderSlice.ts:74-76 | replaces the preview flag and nothing else |
| Store.ClearCurrentForm | src/store/formBuilderSlice.ts:77-79 | drops the current form and nothing else |
| Store.InsertByPermutes | src/store/formBuilderSlice.ts:20-21 | inserting into the sorted list adds exactly the new field |
| Store.InsertBySorted | src/store/formBuilderSlice.ts:21 | inserting into a list sorted by order keeps it sorted |
| Store.InsertByStable | src/store/formBuilderSlice.ts:21 | among fields of equal order, the inserted one comes after those already there |
| Store.SortIntoPermutes | src/store/formBuilderSlice.ts:21 | inserting each field in turn keeps exactly the fields given and those already placed |
| Store.SortIntoKeepsSorted | src/store/formBuilderSlice.ts:21 | inserting each field in turn into a list sorted by order leaves it sorted |
| Store.SortIntoStable | src/store/formBuilderSlice.ts:21 | insertion sort keeps the input order of fields with equal order |
| Store.SortByOrder | src/store/formBuilderSlice.ts:21 | sorting by order keeps the length and the multiset of fields and yields a list sorted by order |
| Store.SortByOrderStable | src/store/formBuilderSlice.ts:21 | the sort is stable, as `Array.prototype.sort` is: for each order value, the fields with it keep their relative order |
| Store.SortByOrderSorted | src/store/formBuilderSlice.ts:21 | sorting a list already sorted by order leaves it unchanged |
| Store.AddField | src/store/formBuilderSlice.ts:18-23 | with no current form nothing changes; otherwise the list grows by one, holds the old fields plus the new one, and is sorted by order |
| Store.AddFieldStable | src/store/formBuilderSlice.ts:18-23 | among fields of equal order, the old ones keep their order and the new one comes last |
| Store.UpdateField | src/store/formBuilderSlice.ts:24-31 | the updates are spread over the first field with the id and every other field is untouched; with no form or no such field nothing changes |
| Store.RemoveField | src/store/formBuilderSlice.ts:32-38 | the fields become the filtered list (which keeps the survivors in their relative order, see Common.FilterConcat): no field with the id remains, every field with another id does, and the length drops by the number removed; an absent id changes nothing |
| Store.ReorderFields | src/store/formBuilderSlice.ts:39-53 | the moved field lands at the normalised target index, the length is kept, and every order becomes its position; for in-range indices each position holds the field the move brings there, so the fields not moved keep their relative order |
| Store.ReorderPermutes | src/store/formBuilderSlice.ts:42-51 | apart from the orders, the reordered list is a permutation of the old one |
| Store.ReindexMoveReindex | src/store/formBuilderSlice.ts:42-51 | the result of a reorder does not depend on the orders the fields had before |
| Store.ReorderBack | src/store/formBuilderSlice.ts:39-53 | when orders are positions, reordering a field back where it came from restores the state |
| Store.SaveForm | src/store/formBuilderSlice.ts:54-63 | a form whose id is saved replaces the first one with that id in place; otherwise it is appended; the current form is cleared |
| Store.LoadForm | src/store/formBuilderSlice.ts:64-69 | loads the first saved form with the id; an unknown id changes nothing |
| Store.SaveThenLoad | src/store/formBuilderSlice.ts:54-69 | loading the id of a form just saved gives back exactly that form |
| Store.DeleteForm | src/store/formBuilderSlice.ts:70-73 | the saved forms become the filtered list, in their relative order: no saved form with the id remains, every other one does, and the count drops by the number removed; an unknown id changes nothing |
| Editor.OpenEditor | src/pages/CreateForm.tsx:33-36 | the page starts with both dialogs closed, no name typed and no field being edited |
| Editor.EnsureDraft | src/pages/CreateForm.tsx:38-48 | without a current form a new empty one with the clock's id and time is made current; an existing one is kept |
| Editor.HandleAddField | src/pages/CreateForm.tsx:50-57 | opens the field dialog with nothing being edited |
| Editor.HandleEditField | src/pages/CreateForm.tsx:59-62 | opens the field dialog on the chosen field |
| Editor.CloseFieldDialog | src/pages/CreateForm.tsx:235-238 | closing the dialog forgets the field being edited |
| Editor.HandleDeleteField | src/pages/CreateForm.tsx:64-74 | deleting removes every field with the id; the survivors keep their relative order and each one's order becomes its new position; the count drops by the number removed |
| Editor.DeleteFieldIsRemoveThenReindex | src/pages/CreateForm.tsx:64-74 | the page's delete equals the store's `removeField` followed by renumbering |
| Editor.DeleteAbsentField | src/pages/CreateForm.tsx:64-74 | when orders are positions, deleting an id no field has changes nothing |
| Editor.ReplaceKeepingOrder | src/pages/CreateForm.tsx:79-81 | fields with the saved id are replaced by it but keep their own order; ids and orders of all fields are kept; the others are untouched |
| Editor.NewField | src/pages/CreateForm.tsx:87-91 | a new field gets the clock's id and the next order, all else from the dialog |
| Editor.HandleSaveField | src/pages/CreateForm.tsx:76-101 | an edit keeps the length, every id and every order, puts the saved field's contents (with the old order) at each position with its id, and leaves the other fields untouched; a new field is the saved field appended with the clock's id and order equal to the old length; the dialog closes |
| Editor.SaveFieldKeepsPositions | src/pages/CreateForm.tsx:76-101 | if every order was its position before a save, it still is after |
| Editor.NewFieldAgreesWithAddField | src/pages/CreateForm.tsx:85-97 | when orders are positions, the page's appended list equals what the store's `addField` computed |
| Editor.EditAgreesWithUpdateField | src/pages/CreateForm.tsx:78-84 | with unique ids and the edited field's order, the page's list equals what the store's `updateField` computed |
| Editor.HandleSaveForm | src/pages/CreateForm.tsx:103-113 | with a form and a name that is not blank, the store becomes the result of saveForm on the form renamed to the trimmed name (other saved forms kept, current form cleared, preview flag unchanged) and the dialog resets; otherwise nothing happens |
| Editor.SaveButtonEnabledIffSaves | src/pages/CreateForm.tsx:224 | the save dialog's button is enabled exactly when saving does something |
| Editor.SavedNameIsTrimmed | src/pages/CreateForm.tsx:104-107 | the saved name is not empty and has no surrounding whitespace |
| FieldDialog.OpenDialog | src/components/FieldConfigDialog.tsx:40-96 | on open the draft is the edited field itself, every key present with the field's value (so merging it back changes nothing), or the blank draft: type text, empty label, not required, default value '', no rules, not derived, no parents, empty formula, no options; the option and rule inputs are reset |
| FieldDialog.HandleSave | src/components/FieldConfigDialog.tsx:119-136 | a field results exactly when the label is not empty and a type is set; label, type, default value, rules, parent fields, formula and options are copied from the draft; missing flags and lists become false and empty, a missing default value or formula stays absent; id and order come from the edited field, or "" and 0 |
| FieldDialog.SaveEnabledIffSaves | src/components/FieldConfigDialog.tsx:186 | the Save button's enabled condition is exactly `handleSave`'s guard |
| FieldDialog.SaveUnchangedField | src/components/FieldConfigDialog.tsx:58-62 | opening a labelled field and saving at once gives back the same field |
| FieldDialog.RelabelThenSave | src/components/FieldConfigDialog.tsx:58-136 | opening any field, even one stored with an empty label, typing a label and saving gives back that field under the new label, with its type, rules, options and the rest kept |
| FieldDialog.FreshDialogCannotSave | src/components/FieldConfigDialog.tsx:80-96 | a fresh dialog for a new field cannot save before a label is typed |
| FieldDialog.AddValidationRule | src/components/FieldConfigDialog.tsx:138-151 | a drafted rule with a type and a non-empty message is appended at the end and the rule draft resets; otherwise nothing changes |
| FieldDialog.RemoveValidationRule | src/components/FieldConfigDialog.tsx:153-158 | removing a rule touches only the rule list, and a missing list becomes a list |
| FieldDialog.RemoveValidationRuleSpec | src/components/FieldConfigDialog.tsx:153-158 | exactly the rule at the index goes and the others keep their order; an index outside the list changes nothing |
| FieldDialog.AddOption | src/components/FieldConfigDialog.tsx:160-168 | blank text is rejected; otherwise the trimmed text is appended and the input cleared |
| FieldDialog.AddedOptionTrimmed | src/components/FieldConfigDialog.tsx:161-164 | an added option is non-empty, has no surrounding whitespace and is no longer than what was typed |
| FieldDialog.RemoveOption | src/components/FieldConfigDialog.tsx:170-175 | removing an option touches only the option list, and a missing list becomes a list |
| FieldDialog.RemoveOptionSpec | src/components/FieldConfigDialog.tsx:170-175 | exactly the option at the index goes and the others keep their order; an index outside the list changes nothing |
| FieldDialog.HandleParentFieldChange | src/components/FieldConfigDialog.tsx:177-184 | checking appends the id without deduplication; unchecking removes every occurrence and leaves the filtered list, so the other ids keep their order and count |
| FieldDialog.CheckThenUncheck | src/components/FieldConfigDialog.tsx:177-184 | checking then unchecking an id that was not there restores the parent list |
| FieldDialog.ParentCandidates | src/components/FieldConfigDialog.tsx:293-294 | the candidates are exactly the form's fields that are not derived and are not the field being edited, listed in form order as the filtered list |
| Summary.TypeCountSnoc | src/pages/MyForms.tsx:67-69 | one more field adds one to the count of its own type and nothing to the others |
| Summary.TypeCountsSum | src/pages/MyForms.tsx:65-71 | the per-type counts add up to the number of fields |
| Summary.TotalOfCounts | src/pages/MyForms.tsx:65-71 | a table holding each present type's count adds up to the number of fields |
| Summary.FieldTypeCounts | src/pages/MyForms.tsx:65-71 | the table has an entry for a type exactly when some field has it, each entry is that type's count, and the entries add up to the number of fields |
| Summary.RequiredCount | src/pages/MyForms.tsx:103 | at most the number of fields; all of them exactly when every field is required, 0 exactly when none is |
| Summary.DerivedCount | src/pages/MyForms.tsx:104 | at most the number of fields; all of them exactly when every field is derived, 0 exactly when none is |
| Summary.RequestDelete | src/pages/MyForms.tsx:44-46 | the delete button opens the dialog on that form |
| Summary.ConfirmDelete | src/pages/MyForms.tsx:48-53 | with a pending form, the saved forms become the filtered list without its id (others kept in order) and the dialog resets; without one nothing happens |
| Summary.DeletedFormCannotLoad | src/pages/MyForms.tsx:44-53 | after confirming a delete, loading that id finds nothing |
| Summary.ViewForm | src/pages/MyForms.tsx:34-37 | "View" makes the first saved form with that id current |
| Summary.EditForm | src/pages/MyForms.tsx:39-42 | "Edit" makes the form current |

## Left out

- Browser storage. `saveForms` after `saveForm` and `deleteForm` writes to
  storage and does not change the state. `loadForms` becomes the
  `InitialState` parameter. JSON (de)serialisation and its error paths are not
  modelled.
- Rendering. The JSX and `renderField` are not modelled. In `renderField` the
  second `case 'text'` (the one that picks an email input type) can never be
  reached, because an earlier `case 'text'` returns first. It only affects the
  HTML input type.
- Clocks and dates. `Date.now()` ids and ISO creation times are parameters.
- Birth dates in the derive effect. Today's year is a parameter, and the birth
  year is read from an ISO `YYYY` or `YYYY-…` prefix. Other text gives "NaN".
  This stands in for JavaScript's `Date` parsing and its local-timezone
  `getFullYear`, so other date syntaxes and time-zone edge cases are left out.
- Date display. `formatDate`'s locale formatting is display only.
- React scheduling. Effect scheduling, re-renders and `setTimeout` are not
  modelled: "Add Field" opens the dialog at once.
- Effects that re-run. The derive effect writes a fresh object on every run,
  which re-runs the effect. `Preview.DeriveFixedPoint` shows the values
  themselves stop changing, but the re-render cycle is not modelled.
- Navigation, `alert` and `console.log` have no effect on the state.
- Numbers. Field values and rule parameters are integers. `Number()` accepts
  surrounding whitespace, an optional sign and decimal digits. Decimal points,
  exponents, hexadecimal, `Infinity` and `NaN` are treated as not a number,
  which makes the length rules silent, as `NaN` does.
- String lengths. Dafny strings count Unicode scalar values, while JavaScript's
  `length` counts UTF-16 code units. The two differ for characters outside
  the Basic Multilingual Plane.
- Single-field edits in the dialog. Label, type, default, flags and formula
  edits each set one member of the draft and are not modelled one by one.
  `Types.MergeLaws` covers spreading a whole field over a draft.
- Store.ReorderFields requires the normalised `fromIndex` to be inside the
  list. Outside it the source's `splice` returns no element and the following
  `forEach` throws a `TypeError`.
- Summary.FieldTypeCounts keys the table by field type. The counts of one form
  are modelled, not the rendering of each card.
- Strings.ParseInteger: its own contract only fixes blank text. What it reads
  from printed integers is stated by `Strings.IntToStringRoundTrip`.

=== FILE: common.dfy ===
/**
 Generic building blocks shared by the whole model: an optional value and the
 JavaScript array operations the form builder relies on (`filter`, `findIndex`,
 index-based `filter`, `splice`), each with the properties the rest of the model
 uses.
 */
module Common {

  /** A value that may be missing: JavaScript's `undefined`/`null`. */
  datatype Option<T> = None | Some(value: T) {

    /** The carried value, or `default` when there is none (`x ?? default`). */
    function GetOr(default: T): T {
      match this
      case Some(v) => v
      case None => default
    }
  }

  /** Looks a key up in a map: `obj[key]`, which is `undefined` for a missing key. */
  function Get<K, V>(m: map<K, V>, k: K): (r: Option<V>)
    ensures r.Some? <==> k in m
    ensures r.Some? ==> r.value == m[k]
  {
    if k in m then Some(m[k]) else None
  }

  /** Concatenation is associative; stated once so that proofs need not rediscover it. */
  lemma AppendAssoc<T>(a: seq<T>, b: seq<T>, c: seq<T>)
    ensures a + (b + c) == (a + b) + c
  {
  }

  /** `Array.prototype.filter`: the elements of `s` satisfying `p`, in their original order. */
  function Filter<T>(s: seq<T>, p: T -> bool): (r: seq<T>)
    ensures |r| <= |s|
    ensures forall i :: 0 <= i < |r| ==> p(r[i])
  {
    if |s| == 0 then [] else (if p(s[0]) then [s[0]] else []) + Filter(s[1..], p)
  }

  /** Filtering keeps exactly the elements that pass: each kept one came from `s`, and each passing one is kept. */
  lemma {:induction false} FilterMembers<T>(s: seq<T>, p: T -> bool)
    ensures forall i :: 0 <= i < |Filter(s, p)| ==> Filter(s, p)[i] in s
    ensures forall i :: 0 <= i < |s| && p(s[i]) ==> s[i] in Filter(s, p)
  {
    if |s| > 0 {
      FilterMembers(s[1..], p);
      assert forall i :: 1 <= i < |s| ==> s[i] == s[1..][i - 1];
    }
  }

  /** Filtering distributes over concatenation, so the kept elements keep their relative order. */
  lemma {:induction false} FilterConcat<T>(a: seq<T>, b: seq<T>, p: T -> bool)
    ensures Filter(a + b, p) == Filter(a, p) + Filter(b, p)
  {
    if |a| == 0 {
      assert a + b == b;
    } else {
      assert (a + b)[0] == a[0];
      assert (a + b)[1..] == a[1..] + b;
      FilterConcat(a[1..], b, p);
    }
  }

  /** Filtering keeps a sequence whole exactly when every element passes. */
  lemma {:induction false} FilterKeepsAll<T>(s: seq<T>, p: T -> bool)
    ensures Filter(s, p) == s <==> forall i :: 0 <= i < |s| ==> p(s[i])
  {
    if |s| > 0 {
      FilterKeepsAll(s[1..], p);
      if !p(s[0]) {
        assert |Filter(s, p)| <= |s[1..]| < |s|;
      } else {
        assert forall i :: 1 <= i < |s| ==> s[i] == s[1..][i - 1];
      }
    }
  }

  /** The number of elements of `s` that satisfy `p`: `s.filter(p).length`. */
  function CountWhere<T>(s: seq<T>, p: T -> bool): (r: nat)
    ensures r <= |s|
    ensures r == |s| <==> forall i :: 0 <= i < |s| ==> p(s[i])
    ensures r == 0 <==> forall i :: 0 <= i < |s| ==> !p(s[i])
  {
    CountAll(s, p);
    |Filter(s, p)|
  }

  lemma {:induction false} CountAll<T>(s: seq<T>, p: T -> bool)
    ensures |Filter(s, p)| == |s| <==> forall i :: 0 <= i < |s| ==> p(s[i])
    ensures |Filter(s, p)| == 0 <==> forall i :: 0 <= i < |s| ==> !p(s[i])
  {
    if |s| > 0 {
      CountAll(s[1..], p);
      assert forall i :: 1 <= i < |s| ==> s[i] == s[1..][i - 1];
    }
  }

  /** `Array.prototype.findIndex`: the first index whose element satisfies `p`. */
  function IndexWhere<T>(s: seq<T>, p: T -> bool): (r: Option<nat>)
    ensures r.Some? ==> r.value < |s| && p(s[r.value])
    ensures r.Some? ==> forall j :: 0 <= j < r.value ==> !p(s[j])
    ensures r.None? <==> forall j :: 0 <= j < |s| ==> !p(s[j])
  {
    if |s| == 0 then None
    else if p(s[0]) then Some(0)
    else match IndexWhere(s[1..], p)
      case None => None
      case Some(i) => Some(i + 1)
  }

  /** `Array.prototype.find`: the first element satisfying `p`. */
  function FindWhere<T>(s: seq<T>, p: T -> bool): (r: Option<T>)
    ensures r.Some? ==> r.value in s && p(r.value)
    ensures r.Some? ==> exists i :: 0 <= i < |s| && r.value == s[i] && forall j :: 0 <= j < i ==> !p(s[j])
    ensures r.None? <==> forall j :: 0 <= j < |s| ==> !p(s[j])
  {
    match IndexWhere(s, p)
    case None => None
    case Some(i) => Some(s[i])
  }

  /**
   `s.filter((_, i) => i !== index)`: drops the element at position `index`,
   counting positions from `from`.
   */
  function DropIndexFrom<T>(s: seq<T>, index: int, from: int): (r: seq<T>)
  {
    if |s| == 0 then []
    else (if from != index then [s[0]] else []) + DropIndexFrom(s[1..], index, from + 1)
  }

  /** Removes the element at `index`; an index outside the sequence removes nothing. */
  function RemoveAt<T>(s: seq<T>, index: int): (r: seq<T>)
  {
    DropIndexFrom(s, index, 0)
  }

  lemma DropIndexFromMiddle<T>(s: seq<T>, index: int, from: int)
    requires from < index < from + |s|
    requires DropIndexFrom(s[1..], index, from + 1) == s[1..][..index - from - 1] + s[1..][index - from..]
    ensures DropIndexFrom(s, index, from) == s[..index - from] + s[index - from + 1..]
  {
    var m := index - from - 1;
    assert DropIndexFrom(s, index, from) == [s[0]] + (s[1..][..m] + s[1..][m + 1..]);
    AppendAssoc([s[0]], s[1..][..m], s[1..][m + 1..]);
    assert s[..index - from] == [s[0]] + s[1..][..m];
    assert s[index - from + 1..] == s[1..][m + 1..];
  }

  lemma {:induction false} DropIndexFromSlices<T>(s: seq<T>, index: int, from: int)
    ensures from <= index < from + |s| ==> DropIndexFrom(s, index, from) == s[..index - from] + s[index - from + 1..]
    ensures !(from <= index < from + |s|) ==> DropIndexFrom(s, index, from) == s
  {
    if |s| > 0 {
      DropIndexFromSlices(s[1..], index, from + 1);
      if from == index {
        assert DropIndexFrom(s, index, from) == [] + s[1..];
        assert s[..0] + s[1..] == s[1..];
      } else if from < index < from + |s| {
        DropIndexFromMiddle(s, index, from);
      } else {
        assert DropIndexFrom(s, index, from) == [s[0]] + s[1..];
        assert [s[0]] + s[1..] == s;
      }
    }
  }

  /**
   Removing by index takes out exactly the element at that index and keeps the
   others in order; an index outside the sequence leaves it unchanged.
   */
  lemma RemoveAtSpec<T>(s: seq<T>, index: int)
    ensures 0 <= index < |s| ==> |RemoveAt(s, index)| == |s| - 1
    ensures 0 <= index < |s| ==> forall j :: 0 <= j < index ==> RemoveAt(s, index)[j] == s[j]
    ensures 0 <= index < |s| ==> forall j :: index <= j < |s| - 1 ==> RemoveAt(s, index)[j] == s[j + 1]
    ensures !(0 <= index < |s|) ==> RemoveAt(s, index) == s
  {
    DropIndexFromSlices(s, index, 0);
  }

  /**
   The start position `Array.prototype.splice` uses for a requested `start`:
   a negative start counts from the end, and either end is clamped.
   */
  function SpliceStart(start: int, len: nat): (r: nat)
    ensures r <= len
    ensures 0 <= start <= len ==> r == start
    ensures start > len ==> r == len
    ensures start < 0 && len + start >= 0 ==> r == len + start
    ensures start < 0 && len + start < 0 ==> r == 0
  {
    if start < 0 then (if len + start < 0 then 0 else len + start)
    else if start > len then len
    else start
  }

  /** `s.splice(start, 0, x)`: inserts `x` so that it lands at the normalised start. */
  function InsertAt<T>(s: seq<T>, start: int, x: T): (r: seq<T>)
    ensures |r| == |s| + 1
    ensures r[SpliceStart(start, |s|)] == x
    ensures r[..SpliceStart(start, |s|)] == s[..SpliceStart(start, |s|)]
    ensures r[SpliceStart(start, |s|) + 1..] == s[SpliceStart(start, |s|)..]
  {
    var k := SpliceStart(start, |s|);
    s[..k] + [x] + s[k..]
  }

  /**
   The `splice(from, 1)` / `splice(to, 0, moved)` pair used to move one element
   to a new position. The source only reaches its second splice with a removed
   element, which is what the requires states.
   */
  function Move<T>(s: seq<T>, from: int, to: int): (r: seq<T>)
    requires SpliceStart(from, |s|) < |s|
    ensures |r| == |s|
    ensures r[SpliceStart(to, |s| - 1)] == s[SpliceStart(from, |s|)]
  {
    var i := SpliceStart(from, |s|);
    var rest := s[..i] + s[i + 1..];
    InsertAt(rest, to, s[i])
  }

  /** For in-range indices, a move is "take out at `from`, put back at `to`". */
  lemma MoveShape<T>(s: seq<T>, from: nat, to: nat)
    requires from < |s| && to < |s|
    ensures Move(s, from, to) == (s[..from] + s[from + 1..])[..to] + [s[from]] + (s[..from] + s[from + 1..])[to..]
  {
  }

  /**
   The position of an `n`-element input that lands at position `p` when the
   element at `from` is moved to `to`.
   */
  function MoveSource(n: nat, from: nat, to: nat, p: nat): (r: nat)
    requires from < n && to < n && p < n
    ensures r < n
  {
    if p < to then (if p < from then p else p + 1)
    else if p > to then (if p - 1 < from then p - 1 else p)
    else from
  }

  /** Each position of a moved sequence holds the input's element at `MoveSource`. */
  lemma MoveAt<T>(s: seq<T>, from: nat, to: nat, p: nat)
    requires from < |s| && to < |s| && p < |s|
    ensures Move(s, from, to)[p] == s[MoveSource(|s|, from, to, p)]
  {
  }

  /** Moving an element is a permutation. */
  lemma MovePermutes<T>(s: seq<T>, from: int, to: int)
    requires SpliceStart(from, |s|) < |s|
    ensures multiset(Move(s, from, to)) == multiset(s)
  {
    var i := SpliceStart(from, |s|);
    var rest := s[..i] + s[i + 1..];
    var k := SpliceStart(to, |rest|);
    assert s == s[..i] + [s[i]] + s[i + 1..];
    assert rest == rest[..k] + rest[k..];
    assert Move(s, from, to) == rest[..k] + [s[i]] + rest[k..];
    calc {
      multiset(Move(s, from, to));
      multiset(rest[..k]) + multiset{s[i]} + multiset(rest[k..]);
      multiset(rest) + multiset{s[i]};
      multiset(s[..i]) + multiset(s[i + 1..]) + multiset{s[i]};
      multiset(s);
    }
  }

  /** Moving an element and moving it back restores the original sequence. */
  lemma MoveBack<T>(s: seq<T>, from: nat, to: nat)
    requires from < |s| && to < |s|
    ensures Move(Move(s, from, to), to, from) == s
  {
    var x := s[from];
    var rest := s[..from] + s[from + 1..];
    var m := Move(s, from, to);
    MoveShape(s, from, to);
    assert m[to] == x;
    assert m[..to] + m[to + 1..] == rest;
    MoveShape(m, to, from);
    assert rest[..from] == s[..from];
    assert rest[from..] == s[from + 1..];
    assert s == s[..from] + [x] + s[from + 1..];
  }

  /**
   A sequence of keyed writes applied in order, as a `forEach` that assigns
   `obj[key] = value`: a `None` write leaves the map alone and a later write to
   the same key wins.
   */
  function WriteAll<K, V>(writes: seq<(K, Option<V>)>, m: map<K, V>): map<K, V>
  {
    if |writes| == 0 then m
    else WriteAll(writes[1..], if writes[0].1.Some? then m[writes[0].0 := writes[0].1.value] else m)
  }

  /** Write `i` is performed and no later write goes to the same key. */
  predicate LastWrite<K(==), V>(writes: seq<(K, Option<V>)>, i: int)
    requires 0 <= i < |writes|
  {
    writes[i].1.Some? && forall j :: i < j < |writes| && writes[j].0 == writes[i].0 ==> writes[j].1.None?
  }

  /** Some performed write goes to key `k`. */
  predicate Written<K(==), V>(writes: seq<(K, Option<V>)>, k: K) {
    exists i :: 0 <= i < |writes| && writes[i].0 == k && writes[i].1.Some?
  }

  /**
   After the writes, the keys are the old keys plus every written key; a key no
   write touches keeps its value; the last write to a key decides its value.
   */
  lemma {:induction false} WriteAllSpec<K, V>(writes: seq<(K, Option<V>)>, m: map<K, V>)
    ensures forall k :: k in WriteAll(writes, m) <==> k in m || Written(writes, k)
    ensures forall k :: k in m && !Written(writes, k) ==> WriteAll(writes, m)[k] == m[k]
    ensures forall i :: 0 <= i < |writes| && LastWrite(writes, i) ==>
      writes[i].0 in WriteAll(writes, m) && WriteAll(writes, m)[writes[i].0] == writes[i].1.value
  {
    if |writes| > 0 {
      var w := writes[0];
      var m' := if w.1.Some? then m[w.0 := w.1.value] else m;
      var rest := writes[1..];
      WriteAllSpec(rest, m');
      assert forall i :: 1 <= i < |writes| ==> writes[i] == rest[i - 1];
      forall k ensures Written(writes, k) <==> Written(rest, k) || (w.0 == k && w.1.Some?) {
        if Written(writes, k) {
          var i :| 0 <= i < |writes| && writes[i].0 == k && writes[i].1.Some?;
          if i > 0 {
            assert rest[i - 1].0 == k && rest[i - 1].1.Some?;
          }
        }
        if Written(rest, k) {
          var i :| 0 <= i < |rest| && rest[i].0 == k && rest[i].1.Some?;
          assert writes[i + 1].0 == k;
        }
      }
      forall i | 0 <= i < |writes| && LastWrite(writes, i)
        ensures writes[i].0 in WriteAll(writes, m) && WriteAll(writes, m)[writes[i].0] == writes[i].1.value
      {
        if i > 0 {
          assert LastWrite(rest, i - 1);
        }
      }
    }
  }

  /** Writing onto a map is overriding it with the writes made onto the empty map. */
  lemma {:induction false} WriteAllOverride<K, V>(writes: seq<(K, Option<V>)>, m: map<K, V>)
    ensures WriteAll(writes, m) == m + WriteAll(writes, map[])
  {
    if |writes| > 0 {
      var w := writes[0];
      var m' := if w.1.Some? then m[w.0 := w.1.value] else m;
      var e: map<K, V> := if w.1.Some? then map[w.0 := w.1.value] else map[];
      WriteAllOverride(writes[1..], m');
      WriteAllOverride(writes[1..], e);
      assert m' == m + e;
    }
  }

  /** Performing the same writes twice is the same as performing them once. */
  lemma WriteAllTwice<K, V>(writes: seq<(K, Option<V>)>, m: map<K, V>)
    ensures WriteAll(writes, WriteAll(writes, m)) == WriteAll(writes, m)
  {
    WriteAllOverride(writes, m);
    WriteAllOverride(writes, WriteAll(writes, m));
  }

  /** The last performed write to the key of a performed write `i`. */
  function LastIndexTo<K(==), V>(w: seq<(K, Option<V>)>, i: nat): (last: nat)
    requires i < |w| && w[i].1.Some?
    ensures i <= last < |w| && w[last].0 == w[i].0 && LastWrite(w, last)
    decreases |w| - i
  {
    if exists j :: i < j < |w| && w[j].0 == w[i].0 && w[j].1.Some? then
      var j :| i < j < |w| && w[j].0 == w[i].0 && w[j].1.Some?;
      LastIndexTo(w, j)
    else i
  }
}

=== FILE: editor.dfy ===
/**
 The form editor page: its local state (the name typed into the save dialog,
 which dialogs are open, the field being edited) next to the store, and the
 handlers that change them. Field ids and creation times come from the clock,
 so they are parameters.
 */
module Editor {
  import opened Common
  import opened Types
  import opened Strings
  import opened Store

  datatype Editor = Editor(
    store: State,
    formName: string,
    showSaveDialog: bool,
    showFieldDialog: bool,
    editing: Option<FormField>)

  /** The page as it first renders: both dialogs closed, nothing typed, nothing being edited. */
  function OpenEditor(store: State): (r: Editor)
    ensures r.store == store && r.formName == "" && r.editing.None?
    ensures !r.showSaveDialog && !r.showFieldDialog
  {
    Editor(store, "", false, false, None)
  }

  /**
   The page's effect: with no current form, a new empty one is made current,
   its id and creation time taken from the clock. An existing form is kept.
   */
  function EnsureDraft(e: Editor, now: string, createdAt: string): (r: Editor)
    ensures r.store.currentForm.Some?
    ensures e.store.currentForm.Some? ==> r == e
    ensures e.store.currentForm.None? ==>
      r == e.(store := r.store)
      && r.store.currentForm.value.id == now && r.store.currentForm.value.name == ""
      && r.store.currentForm.value.fields == [] && r.store.currentForm.value.createdAt == createdAt
      && r.store.savedForms == e.store.savedForms && r.store.isPreviewMode == e.store.isPreviewMode
  {
    if e.store.currentForm.None? then
      e.(store := SetCurrentForm(e.store, Some(Form(now, "", [], createdAt))))
    else e
  }

  /** "Add Field": opens the field dialog with nothing being edited. */
  function HandleAddField(e: Editor): (r: Editor)
    ensures r.showFieldDialog && r.editing.None?
    ensures r.store == e.store && r.formName == e.formName && r.showSaveDialog == e.showSaveDialog
  {
    e.(editing := None, showFieldDialog := true)
  }

  /** "Edit": opens the field dialog on the given field. */
  function HandleEditField(e: Editor, field: FormField): (r: Editor)
    ensures r.showFieldDialog && r.editing == Some(field)
    ensures r.store == e.store && r.formName == e.formName && r.showSaveDialog == e.showSaveDialog
  {
    e.(editing := Some(field), showFieldDialog := true)
  }

  /** Closing the field dialog without saving. */
  function CloseFieldDialog(e: Editor): (r: Editor)
    ensures !r.showFieldDialog && r.editing.None?
    ensures r.store == e.store && r.formName == e.formName && r.showSaveDialog == e.showSaveDialog
  {
    e.(showFieldDialog := false, editing := None)
  }

  /**
   Deleting a field on the page: every field with the id goes, and the rest are
   renumbered so that each one's order is its position.
   */
  function HandleDeleteField(e: Editor, id: string): (r: Editor)
    ensures e.store.currentForm.None? ==> r == e
    ensures e.store.currentForm.Some? ==>
      && r == e.(store := r.store)
      && r.store.currentForm.Some?
      && r.store.currentForm.value == e.store.currentForm.value.(fields := r.store.currentForm.value.fields)
      && r.store.savedForms == e.store.savedForms && r.store.isPreviewMode == e.store.isPreviewMode
      && OrdersArePositions(r.store.currentForm.value.fields)
      && (forall j :: 0 <= j < |r.store.currentForm.value.fields| ==> r.store.currentForm.value.fields[j].id != id)
      && |r.store.currentForm.value.fields| == CountWhere(e.store.currentForm.value.fields, IdIsNot(id))
      && r.store.currentForm.value.fields == Reindex(Filter(e.store.currentForm.value.fields, IdIsNot(id)))
      && (forall j :: 0 <= j < |r.store.currentForm.value.fields| ==>
            r.store.currentForm.value.fields[j]
            == Filter(e.store.currentForm.value.fields, IdIsNot(id))[j].(order := j))
  {
    match e.store.currentForm
    case None => e
    case Some(form) =>
      var kept := Reindex(Filter(form.fields, IdIsNot(id)));
      e.(store := SetCurrentForm(e.store, Some(form.(fields := kept))))
  }

  /** The page's delete is the store's `removeField` followed by renumbering. */
  lemma DeleteFieldIsRemoveThenReindex(e: Editor, id: string)
    requires e.store.currentForm.Some?
    ensures HandleDeleteField(e, id).store.currentForm.value.fields
         == Reindex(RemoveField(e.store, id).currentForm.value.fields)
  {
  }

  /**
   Deleting an id no field has changes nothing, provided every field's order
   already was its position.
   */
  lemma DeleteAbsentField(e: Editor, id: string)
    requires e.store.currentForm.Some? && OrdersArePositions(e.store.currentForm.value.fields)
    requires forall j :: 0 <= j < |e.store.currentForm.value.fields| ==> e.store.currentForm.value.fields[j].id != id
    ensures HandleDeleteField(e, id) == e
  {
    var fields := e.store.currentForm.value.fields;
    FilterKeepsAll(fields, IdIsNot(id));
    ReindexIdempotent(fields);
  }

  /** Replaces every field whose id is the saved field's, keeping the old field's order. */
  function ReplaceKeepingOrder(fields: seq<FormField>, field: FormField): (r: seq<FormField>)
    ensures |r| == |fields|
    ensures forall j :: 0 <= j < |r| ==> r[j].id == fields[j].id && r[j].order == fields[j].order
    ensures forall j :: 0 <= j < |r| && fields[j].id == field.id ==> r[j] == field.(order := fields[j].order)
    ensures forall j :: 0 <= j < |r| && fields[j].id != field.id ==> r[j] == fields[j]
  {
    seq(|fields|, j requires 0 <= j < |fields| =>
      if fields[j].id == field.id then field.(order := fields[j].order) else fields[j])
  }

  /** The field a new-field save appends: the dialog's field with a clock id and the next order. */
  function NewField(field: FormField, fields: seq<FormField>, now: string): (r: FormField)
    ensures r.id == now && r.order == |fields|
    ensures r.(id := field.id, order := field.order) == field
  {
    field.(id := now, order := |fields|)
  }

  /**
   Saving the field dialog. When a field was being edited, the store's
   `updateField` runs and then the form is set to the page's own list in which
   the field with the saved id is replaced but keeps its order. Otherwise the
   store's `addField` runs and then the form is set to the old list with the
   new field appended. Either way the dialog closes.
   */
  function HandleSaveField(e: Editor, field: FormField, now: string): (r: Editor)
    ensures !r.showFieldDialog && r.editing.None?
    ensures r.formName == e.formName && r.showSaveDialog == e.showSaveDialog
    ensures r.store.savedForms == e.store.savedForms && r.store.isPreviewMode == e.store.isPreviewMode
    ensures e.store.currentForm.None? ==> r.store == e.store
    ensures e.store.currentForm.Some? ==>
      var before := e.store.currentForm.value.fields;
      && r.store.currentForm.Some?
      && r.store.currentForm.value == e.store.currentForm.value.(fields := r.store.currentForm.value.fields)
      && (e.editing.Some? ==>
            && |r.store.currentForm.value.fields| == |before|
            && (forall j :: 0 <= j < |before| ==>
                  r.store.currentForm.value.fields[j].id == before[j].id
                  && r.store.currentForm.value.fields[j].order == before[j].order)
            && (forall j :: 0 <= j < |before| && before[j].id == field.id ==>
                  r.store.currentForm.value.fields[j] == field.(order := before[j].order))
            && (forall j :: 0 <= j < |before| && before[j].id != field.id ==>
                  r.store.currentForm.value.fields[j] == before[j]))
      && (e.editing.None? ==>
            && |r.store.currentForm.value.fields| == |before| + 1
            && r.store.currentForm.value.fields[..|before|] == before
            && r.store.currentForm.value.fields[|before|] == NewField(field, before, now)
            && r.store.currentForm.value.fields[|before|].id == now
            && r.store.currentForm.value.fields[|before|].order == |before|)
  {
    var store := match e.store.currentForm
      case None => e.store
      case Some(form) =>
        if e.editing.Some? then
          var updated := UpdateField(e.store, e.editing.value.id, AsPatch(field));
          SetCurrentForm(updated, Some(form.(fields := ReplaceKeepingOrder(form.fields, field))))
        else
          var added := AddField(e.store, NewField(field, form.fields, now));
          SetCurrentForm(added, Some(form.(fields := form.fields + [NewField(field, form.fields, now)])));
    e.(store := store, showFieldDialog := false, editing := None)
  }

  /** Saving keeps "every field's order is its position" true. */
  lemma SaveFieldKeepsPositions(e: Editor, field: FormField, now: string)
    requires e.store.currentForm.Some? && OrdersArePositions(e.store.currentForm.value.fields)
    ensures OrdersArePositions(HandleSaveField(e, field, now).store.currentForm.value.fields)
  {
  }

  /**
   The page's append agrees with what the store's `addField` computed: when
   orders are positions, the new field's order is the largest, so the store's
   sort leaves the appended list as it is.
   */
  lemma NewFieldAgreesWithAddField(e: Editor, field: FormField, now: string)
    requires e.store.currentForm.Some? && OrdersArePositions(e.store.currentForm.value.fields)
    ensures AddField(e.store, NewField(field, e.store.currentForm.value.fields, now)).currentForm
         == HandleSaveField(e.(editing := None), field, now).store.currentForm
  {
    var fields := e.store.currentForm.value.fields;
    var appended := fields + [NewField(field, fields, now)];
    assert SortedBy(appended, Order) by {
      forall i, j | 0 <= i < j < |appended| ensures Order(appended[i]) <= Order(appended[j]) {
        assert Order(appended[i]) == i;
      }
    }
    SortByOrderSorted(appended);
  }

  /**
   The page's replacement agrees with what the store's `updateField`
   computed, when ids are unique and the saved field carries the edited
   field's id and order.
   */
  lemma EditAgreesWithUpdateField(e: Editor, field: FormField, now: string, i: nat)
    requires e.store.currentForm.Some? && UniqueIds(e.store.currentForm.value.fields)
    requires e.editing.Some? && e.editing.value.id == field.id
    requires i < |e.store.currentForm.value.fields| && e.store.currentForm.value.fields[i].id == field.id
    requires e.store.currentForm.value.fields[i].order == field.order
    ensures UpdateField(e.store, field.id, AsPatch(field)).currentForm
         == HandleSaveField(e, field, now).store.currentForm
  {
    var fields := e.store.currentForm.value.fields;
    var updated := UpdateField(e.store, field.id, AsPatch(field)).currentForm.value.fields;
    var replaced := HandleSaveField(e, field, now).store.currentForm.value.fields;
    MergeLaws(fields[i], field);
    assert FirstWithId(fields, field.id, i);
    assert |updated| == |replaced| == |fields|;
    forall j | 0 <= j < |fields| ensures updated[j] == replaced[j] {
      if j == i {
        assert updated[j] == field;
        assert replaced[j] == field.(order := fields[i].order);
      } else {
        assert fields[j].id != field.id by {
          if j < i { assert fields[j].id != fields[i].id; } else { assert fields[i].id != fields[j].id; }
        }
        assert !FirstWithId(fields, field.id, j);
      }
    }
    assert updated == replaced;
  }

  /**
   "Save" in the save dialog: with a current form and a name that is not blank,
   the form is saved under the trimmed name and the dialog closes and forgets
   the name; otherwise nothing happens.
   */
  function HandleSaveForm(e: Editor): (r: Editor)
    ensures e.store.currentForm.None? || AllWhitespace(e.formName) ==> r == e
    ensures e.store.currentForm.Some? && !AllWhitespace(e.formName) ==>
      && r.formName == "" && !r.showSaveDialog
      && r.showFieldDialog == e.showFieldDialog && r.editing == e.editing
      && r.store == SaveForm(e.store, e.store.currentForm.value.(name := Trim(e.formName)))
      && r.store.currentForm.None? && r.store.isPreviewMode == e.store.isPreviewMode
      && LoadForm(r.store, e.store.currentForm.value.id).currentForm
         == Some(e.store.currentForm.value.(name := Trim(e.formName)))
  {
    if Trim(e.formName) != [] && e.store.currentForm.Some? then
      var saved := e.store.currentForm.value.(name := Trim(e.formName));
      SaveThenLoad(e.store, saved);
      e.(store := SaveForm(e.store, saved), showSaveDialog := false, formName := "")
    else e
  }

  /** The save dialog's button is enabled exactly when the typed name is not blank. */
  predicate CanSaveForm(e: Editor) {
    Trim(e.formName) != []
  }

  /** With a form being edited, the save dialog's button is enabled exactly when pressing it does something. */
  lemma SaveButtonEnabledIffSaves(e: Editor)
    requires e.store.currentForm.Some?
    ensures CanSaveForm(e) <==> HandleSaveForm(e) != e
  {
  }

  /** The name a form is saved under has no leading or trailing whitespace. */
  lemma SavedNameIsTrimmed(e: Editor)
    requires e.store.currentForm.Some? && CanSaveForm(e)
    ensures var name := LoadForm(HandleSaveForm(e).store, e.store.currentForm.value.id).currentForm.value.name;
      name != [] && !IsWhitespace(name[0]) && !IsWhitespace(name[|name| - 1])
  {
  }
}

=== FILE: field_dialog.dfy ===
/**
 The field configuration dialog: a partial field being drafted, the option
 text being typed, and the validation rule being drafted, with the handlers
 that edit them and the save that turns the draft into a field.
 */
module FieldDialog {
  import opened Common
  import opened Types
  import opened Strings

  /** `Partial<ValidationRule>`: the rule being drafted below the rule list. */
  datatype RuleDraft = RuleDraft(kind: Option<RuleKind>, param: Option<RuleParam>, message: Option<string>)

  datatype Dialog = Dialog(draft: FieldPatch, newOption: string, newRule: RuleDraft)

  /** The rule draft after a reset: a required rule with an empty message. */
  const FreshRule := RuleDraft(Some(Required), None, Some(""))

  /** The draft of a new field: a text field with every member blank. */
  const EmptyDraft := FieldPatch(
    None, Some(Text), Some(""), Some(false), Some(Some(Str(""))), Some([]),
    Some(false), Some([]), Some(Some("")), Some([]), None)

  /**
   The dialog's state whenever it opens or resets: the edited field as the
   draft, or the blank draft for a new field, with the option and rule inputs
   cleared.
   */
  function OpenDialog(editing: Option<FormField>): (r: Dialog)
    ensures r.newOption == "" && r.newRule == FreshRule
    ensures editing.Some? ==> Merge(editing.value, r.draft) == editing.value
    ensures editing.Some? ==> r.draft == AsPatch(editing.value)
    ensures editing.None? ==>
      && r.draft.id.None? && r.draft.order.None?
      && r.draft.fieldType == Some(Text) && r.draft.labelText == Some("")
      && r.draft.required == Some(false) && r.draft.defaultValue == Some(Some(Str("")))
      && r.draft.rules == Some([]) && r.draft.isDerived == Some(false)
      && r.draft.parentFields == Some([]) && r.draft.derivedFormula == Some(Some(""))
      && r.draft.options == Some([])
  {
    match editing
    case Some(f) =>
      MergeLaws(f, f);
      Dialog(AsPatch(f), "", FreshRule)
    case None => Dialog(EmptyDraft, "", FreshRule)
  }

  /** Whether the draft has a label that is not empty and a type: the Save button's enabled condition. */
  predicate IsFormValid(d: Dialog) {
    d.draft.labelText.Some? && d.draft.labelText.value != "" && d.draft.fieldType.Some?
  }

  /**
   `handleSave`: with a label and a type the draft becomes a field, missing
   flags and lists defaulting to `false` and empty, the id and order taken from
   the field being edited (empty and 0 for a new one); otherwise nothing is
   saved.
   */
  function HandleSave(d: Dialog, editing: Option<FormField>): (r: Option<FormField>)
    ensures r.Some? <==> d.draft.labelText.Some? && d.draft.labelText.value != "" && d.draft.fieldType.Some?
    ensures r.Some? ==>
      && r.value.labelText == d.draft.labelText.value
      && r.value.fieldType == d.draft.fieldType.value
      && r.value.id == (if editing.Some? then editing.value.id else "")
      && r.value.order == (if editing.Some? then editing.value.order else 0)
      && r.value.required == (d.draft.required == Some(true))
      && r.value.isDerived == (d.draft.isDerived == Some(true))
      && (d.draft.rules.None? ==> r.value.rules == [])
      && (d.draft.rules.Some? ==> r.value.rules == d.draft.rules.value)
      && (d.draft.defaultValue.None? ==> r.value.defaultValue.None?)
      && (d.draft.defaultValue.Some? ==> r.value.defaultValue == d.draft.defaultValue.value)
      && (d.draft.parentFields.None? ==> r.value.parentFields == [])
      && (d.draft.parentFields.Some? ==> r.value.parentFields == d.draft.parentFields.value)
      && (d.draft.derivedFormula.None? ==> r.value.derivedFormula.None?)
      && (d.draft.derivedFormula.Some? ==> r.value.derivedFormula == d.draft.derivedFormula.value)
      && (d.draft.options.None? ==> r.value.options == [])
      && (d.draft.options.Some? ==> r.value.options == d.draft.options.value)
  {
    var patch := d.draft;
    if patch.labelText.Some? && patch.labelText.value != "" && patch.fieldType.Some? then
      Some(FormField(
        if editing.Some? then editing.value.id else "",
        patch.fieldType.value,
        patch.labelText.value,
        patch.required.GetOr(false),
        patch.defaultValue.GetOr(None),
        patch.rules.GetOr([]),
        patch.isDerived.GetOr(false),
        patch.parentFields.GetOr([]),
        patch.derivedFormula.GetOr(None),
        patch.options.GetOr([]),
        if editing.Some? then editing.value.order else 0))
    else None
  }

  /** The Save button is enabled exactly when saving produces a field. */
  lemma SaveEnabledIffSaves(d: Dialog, editing: Option<FormField>)
    ensures IsFormValid(d) <==> HandleSave(d, editing).Some?
  {
  }

  /** Opening the dialog on a field with a label and saving at once gives back the same field. */
  lemma SaveUnchangedField(f: FormField)
    requires f.labelText != ""
    ensures HandleSave(OpenDialog(Some(f)), Some(f)) == Some(f)
  {
  }

  /**
   Opening the dialog on any field (even one stored with an empty label),
   typing a label that is not empty and saving gives back the same field under
   the new label: its type, rules, options and the rest survive the dialog.
   */
  lemma RelabelThenSave(f: FormField, newLabel: string)
    requires newLabel != ""
    ensures var d := OpenDialog(Some(f));
      HandleSave(d.(draft := d.draft.(labelText := Some(newLabel))), Some(f)) == Some(f.(labelText := newLabel))
  {
  }

  /** A new field cannot be saved before a label is typed. */
  lemma FreshDialogCannotSave(editing: Option<FormField>)
    ensures HandleSave(OpenDialog(None), editing).None?
  {
  }

  /**
   `addValidationRule`: a drafted rule with a type and a message that is not
   empty is appended to the rule list, and the rule draft is reset; otherwise
   nothing changes.
   */
  function AddValidationRule(d: Dialog): (r: Dialog)
    ensures !(d.newRule.kind.Some? && d.newRule.message.Some? && d.newRule.message.value != "") ==> r == d
    ensures d.newRule.kind.Some? && d.newRule.message.Some? && d.newRule.message.value != "" ==>
      && r.newRule == FreshRule && r.newOption == d.newOption
      && r.draft == d.draft.(rules := r.draft.rules)
      && r.draft.rules.Some?
      && |r.draft.rules.value| == |d.draft.rules.GetOr([])| + 1
      && r.draft.rules.value[..|d.draft.rules.GetOr([])|] == d.draft.rules.GetOr([])
      && r.draft.rules.value[|d.draft.rules.GetOr([])|]
         == ValidationRule(d.newRule.kind.value, d.newRule.param, d.newRule.message.value)
  {
    if d.newRule.kind.Some? && d.newRule.message.Some? && d.newRule.message.value != "" then
      var rule := ValidationRule(d.newRule.kind.value, d.newRule.param, d.newRule.message.value);
      var rules := d.draft.rules.GetOr([]) + [rule];
      assert rules[..|d.draft.rules.GetOr([])|] == d.draft.rules.GetOr([]);
      d.(draft := d.draft.(rules := Some(rules)), newRule := FreshRule)
    else d
  }

  /**
   `removeValidationRule`: drops the rule at the index and keeps the others in
   order; an index outside the list changes nothing but an absent list, which
   becomes empty.
   */
  function RemoveValidationRule(d: Dialog, index: int): (r: Dialog)
    ensures r == d.(draft := d.draft.(rules := r.draft.rules))
    ensures r.draft.rules == Some(RemoveAt(d.draft.rules.GetOr([]), index))
  {
    d.(draft := d.draft.(rules := Some(RemoveAt(d.draft.rules.GetOr([]), index))))
  }

  /** What removing a rule does to the list, element by element. */
  lemma RemoveValidationRuleSpec(d: Dialog, index: int)
    ensures var before := d.draft.rules.GetOr([]);
      var after := RemoveValidationRule(d, index).draft.rules.value;
      && (0 <= index < |before| ==>
            && |after| == |before| - 1
            && (forall j :: 0 <= j < index ==> after[j] == before[j])
            && (forall j :: index <= j < |after| ==> after[j] == before[j + 1]))
      && (!(0 <= index < |before|) ==> after == before)
  {
    RemoveAtSpec(d.draft.rules.GetOr([]), index);
  }

  /**
   `addOption`: typed text that is not blank is appended, trimmed, to the
   options and the input is cleared; blank text changes nothing.
   */
  function AddOption(d: Dialog): (r: Dialog)
    ensures AllWhitespace(d.newOption) ==> r == d
    ensures !AllWhitespace(d.newOption) ==>
      && r.newOption == "" && r.newRule == d.newRule
      && r.draft == d.draft.(options := r.draft.options)
      && r.draft.options.Some?
      && r.draft.options.value == d.draft.options.GetOr([]) + [Trim(d.newOption)]
      && Trim(d.newOption) != ""
  {
    if Trim(d.newOption) != "" then
      d.(draft := d.draft.(options := Some(d.draft.options.GetOr([]) + [Trim(d.newOption)])), newOption := "")
    else d
  }

  /** An option added through the dialog has no surrounding whitespace. */
  lemma AddedOptionTrimmed(d: Dialog)
    requires !AllWhitespace(d.newOption)
    ensures var options := AddOption(d).draft.options.value;
      var added := options[|options| - 1];
      added != "" && !IsWhitespace(added[0]) && !IsWhitespace(added[|added| - 1])
      && |added| <= |d.newOption|
  {
  }

  /**
   `removeOption`: drops the option at the index; an absent list becomes
   empty.
   */
  function RemoveOption(d: Dialog, index: int): (r: Dialog)
    ensures r == d.(draft := d.draft.(options := r.draft.options))
    ensures r.draft.options == Some(RemoveAt(d.draft.options.GetOr([]), index))
  {
    d.(draft := d.draft.(options := Some(RemoveAt(d.draft.options.GetOr([]), index))))
  }

  /** What removing an option does to the list, element by element. */
  lemma RemoveOptionSpec(d: Dialog, index: int)
    ensures var before := d.draft.options.GetOr([]);
      var after := RemoveOption(d, index).draft.options.value;
      && (0 <= index < |before| ==>
            && |after| == |before| - 1
            && (forall j :: 0 <= j < index ==> after[j] == before[j])
            && (forall j :: index <= j < |after| ==> after[j] == before[j + 1]))
      && (!(0 <= index < |before|) ==> after == before)
  {
    RemoveAtSpec(d.draft.options.GetOr([]), index);
  }

  function IsNot(id: string): string -> bool {
    (s: string) => s != id
  }

  /**
   `handleParentFieldChange`: checking appends the id, even when it is already
   there; unchecking removes every occurrence and keeps the other ids.
   */
  function HandleParentFieldChange(d: Dialog, id: string, checked: bool): (r: Dialog)
    ensures r == d.(draft := d.draft.(parentFields := r.draft.parentFields))
    ensures r.draft.parentFields.Some?
    ensures checked ==> r.draft.parentFields.value == d.draft.parentFields.GetOr([]) + [id]
    ensures !checked ==>
      var before := d.draft.parentFields.GetOr([]);
      var after := r.draft.parentFields.value;
      && id !in after
      && (forall j :: 0 <= j < |before| && before[j] != id ==> before[j] in after)
      && (forall j :: 0 <= j < |after| ==> after[j] in before)
      && after == Filter(before, IsNot(id))
  {
    var before := d.draft.parentFields.GetOr([]);
    FilterMembers(before, IsNot(id));
    d.(draft := d.draft.(parentFields := Some(if checked then before + [id] else Filter(before, IsNot(id)))))
  }

  /** Unchecking after checking leaves no trace of the id, and keeps a list without it as it was. */
  lemma CheckThenUncheck(d: Dialog, id: string)
    requires id !in d.draft.parentFields.GetOr([])
    ensures HandleParentFieldChange(HandleParentFieldChange(d, id, true), id, false).draft.parentFields
         == Some(d.draft.parentFields.GetOr([]))
  {
    var before := d.draft.parentFields.GetOr([]);
    FilterConcat(before, [id], IsNot(id));
    assert Filter([id], IsNot(id)) == [];
    assert forall i :: 0 <= i < |before| ==> IsNot(id)(before[i]);
    FilterKeepsAll(before, IsNot(id));
    var checked := HandleParentFieldChange(d, id, true);
    assert checked.draft.parentFields.GetOr([]) == before + [id];
    assert Filter(before + [id], IsNot(id)) == before;
  }

  function IsParentCandidate(editing: Option<FormField>): FormField -> bool {
    (f: FormField) => !f.isDerived && (editing.None? || f.id != editing.value.id)
  }

  /**
   The fields offered as parents of a derived field: the form's fields that
   are not derived and are not the field being edited, in form order.
   */
  function ParentCandidates(existing: seq<FormField>, editing: Option<FormField>): (r: seq<FormField>)
    ensures forall j :: 0 <= j < |r| ==> !r[j].isDerived && r[j] in existing
    ensures editing.Some? ==> forall j :: 0 <= j < |r| ==> r[j].id != editing.value.id
    ensures forall j :: (0 <= j < |existing| && !existing[j].isDerived
      && (editing.None? || existing[j].id != editing.value.id)) ==> existing[j] in r
    ensures r == Filter(existing, IsParentCandidate(editing))
  {
    FilterMembers(existing, IsParentCandidate(editing));
    Filter(existing, IsParentCandidate(editing))
  }
}

=== FILE: preview.dfy ===
/**
 The preview session: the value, error and touched maps the preview page keeps
 for the form being previewed, and the transitions on them: the initial values,
 the derived "Age" update, a field change, a blur and a submit. Today's year is
 a parameter, as the page reads it from the clock.
 */
module Preview {
  import opened Common
  import opened Strings
  import opened Types
  import opened Validation

  datatype Session = Session(values: map<string, Value>, errors: map<string, seq<string>>, touched: map<string, bool>)

  // ---------------------------------------------------------------- initial values

  /** The value a field starts with, or `None` when it gets no entry. */
  function InitialEntry(f: FormField): Option<Value> {
    if f.defaultValue.Some? then f.defaultValue
    else match f.fieldType
      case Checkbox => Some(Bool(false))
      case Radio => if |f.options| > 0 then Some(Str(f.options[0])) else None
      case _ => Some(Str(""))
  }

  function InitialWrites(fields: seq<FormField>): (w: seq<(string, Option<Value>)>)
    ensures |w| == |fields|
    ensures forall i :: 0 <= i < |w| ==> w[i] == (fields[i].id, InitialEntry(fields[i]))
  {
    seq(|fields|, i requires 0 <= i < |fields| => (fields[i].id, InitialEntry(fields[i])))
  }

  /** The initial value map built when a form is opened in preview. */
  function InitialValues(fields: seq<FormField>): map<string, Value> {
    WriteAll(InitialWrites(fields), map[])
  }

  /** Opening a form replaces the value map; with no form the session is left as it is. */
  function Open(form: Option<Form>, s: Session): (r: Session)
    ensures form.None? ==> r == s
    ensures form.Some? ==> r.values == InitialValues(form.value.fields)
    ensures r.errors == s.errors && r.touched == s.touched
  {
    match form
    case None => s
    case Some(f) => s.(values := InitialValues(f.fields))
  }

  /**
   Every field gets an entry except a radio field with neither a default value
   nor options. (With repeated ids the last field with an entry decides.)
   */
  lemma InitialValuesKeys(fields: seq<FormField>)
    ensures forall k :: k in InitialValues(fields) <==>
      (exists i :: 0 <= i < |fields| && fields[i].id == k
        && !(fields[i].defaultValue.None? && fields[i].fieldType == Radio && |fields[i].options| == 0))
  {
    var w := InitialWrites(fields);
    WriteAllSpec(w, map[]);
    forall k
      ensures Written(w, k) <==>
        (exists i :: 0 <= i < |fields| && fields[i].id == k && !(fields[i].defaultValue.None? && fields[i].fieldType == Radio && |fields[i].options| == 0))
    {
      if Written(w, k) {
        var i :| 0 <= i < |w| && w[i].0 == k && w[i].1.Some?;
        assert fields[i].id == k;
      }
    }
  }

  /** With unique ids, a field that gets an entry holds exactly its own initial value. */
  lemma InitialValuesEntry(fields: seq<FormField>, i: nat)
    requires UniqueIds(fields) && i < |fields| && InitialEntry(fields[i]).Some?
    ensures fields[i].id in InitialValues(fields)
    ensures InitialValues(fields)[fields[i].id] == InitialEntry(fields[i]).value
  {
    var w := InitialWrites(fields);
    WriteAllSpec(w, map[]);
    assert LastWrite(w, i);
  }

  /**
   With unique ids, a field's initial value is its default value when it has
   one; otherwise `false` for a checkbox, the first option for a radio field
   with options and `''` for any other type.
   */
  lemma InitialValuesSpec(fields: seq<FormField>)
    ensures forall i :: 0 <= i < |fields| && UniqueIds(fields) ==>
      && (InitialEntry(fields[i]).Some? ==> fields[i].id in InitialValues(fields))
      && (fields[i].defaultValue.Some? ==> InitialValues(fields)[fields[i].id] == fields[i].defaultValue.value)
      && (fields[i].defaultValue.None? && fields[i].fieldType == Checkbox ==> InitialValues(fields)[fields[i].id] == Bool(false))
      && (fields[i].defaultValue.None? && fields[i].fieldType == Radio && |fields[i].options| > 0 ==>
            InitialValues(fields)[fields[i].id] == Str(fields[i].options[0]))
      && (fields[i].defaultValue.None? && fields[i].fieldType != Checkbox && fields[i].fieldType != Radio ==>
            InitialValues(fields)[fields[i].id] == Str(""))
  {
    forall i | 0 <= i < |fields| && UniqueIds(fields) && InitialEntry(fields[i]).Some? {
      InitialValuesEntry(fields, i);
    }
  }

  // ---------------------------------------------------------------- derived "Age" fields

  /** A derived field whose formula mentions "Age" and which names at least one parent. */
  predicate AgeField(f: FormField) {
    f.isDerived && |f.parentFields| > 0 && f.derivedFormula.Some? && Includes(f.derivedFormula.value, "Age")
  }

  /** The first parent's current value when it is a non-empty string (the birth date text). */
  function BirthText(f: FormField, values: map<string, Value>): Option<string>
    requires |f.parentFields| > 0
  {
    var v := Get(values, f.parentFields[0]);
    if v.Some? && v.value.Str? && v.value.s != "" then Some(v.value.s) else None
  }

  /** The calendar year of an ISO date text (`YYYY` alone or followed by `-`). */
  function BirthYear(s: string): Option<nat> {
    if |s| >= 4 && AllDigits(s[..4]) && (|s| == 4 || s[4] == '-') then Some(ParseDigits(s[..4])) else None
  }

  /** `age.toString()` with `age = todayYear - birthYear`; an unreadable date gives `NaN`. */
  function AgeText(todayYear: int, birth: string): string {
    match BirthYear(birth)
    case None => "NaN"
    case Some(y) => IntToString(todayYear - y)
  }

  /** What deriving writes for one field, if anything. */
  function DeriveEntry(f: FormField, values: map<string, Value>, todayYear: int): Option<Value> {
    if AgeField(f) && BirthText(f, values).Some? then Some(Str(AgeText(todayYear, BirthText(f, values).value))) else None
  }

  function DeriveWrites(fields: seq<FormField>, values: map<string, Value>, todayYear: int): (w: seq<(string, Option<Value>)>)
    ensures |w| == |fields|
    ensures forall i :: 0 <= i < |w| ==> w[i] == (fields[i].id, DeriveEntry(fields[i], values, todayYear))
  {
    seq(|fields|, i requires 0 <= i < |fields| => (fields[i].id, DeriveEntry(fields[i], values, todayYear)))
  }

  /**
   One run of the derivation effect: every derived "Age" field whose first parent
   holds a non-empty string gets the age as text. Parent values are read from the
   map the effect started with.
   */
  function Derive(fields: seq<FormField>, values: map<string, Value>, todayYear: int): map<string, Value> {
    WriteAll(DeriveWrites(fields, values, todayYear), values)
  }

  /**
   Deriving adds or changes only the entries of derived "Age" fields whose first
   parent holds a non-empty string, and each such field (the last one, should ids
   repeat) holds `todayYear - birthYear` as text.
   */
  lemma DeriveSpec(fields: seq<FormField>, values: map<string, Value>, todayYear: int)
    ensures forall k :: k in Derive(fields, values, todayYear) && (k !in values || Derive(fields, values, todayYear)[k] != values[k]) ==>
      exists i :: 0 <= i < |fields| && fields[i].id == k && AgeField(fields[i]) && BirthText(fields[i], values).Some?
    ensures values.Keys <= Derive(fields, values, todayYear).Keys
    ensures forall i :: 0 <= i < |fields| && UniqueIds(fields) && AgeField(fields[i]) && BirthText(fields[i], values).Some? ==>
      fields[i].id in Derive(fields, values, todayYear) &&
      Derive(fields, values, todayYear)[fields[i].id] == Str(AgeText(todayYear, BirthText(fields[i], values).value))
  {
    var w := DeriveWrites(fields, values, todayYear);
    WriteAllSpec(w, values);
    forall k | Written(w, k)
      ensures exists i :: 0 <= i < |fields| && fields[i].id == k && AgeField(fields[i]) && BirthText(fields[i], values).Some?
    {
      var i :| 0 <= i < |w| && w[i].0 == k && w[i].1.Some?;
      assert fields[i].id == k;
    }
    forall i | 0 <= i < |fields| && UniqueIds(fields) && AgeField(fields[i]) && BirthText(fields[i], values).Some?
      ensures LastWrite(w, i)
    {
    }
  }

  /** No "Age" field takes its birth date from a derived field. */
  predicate FirstParentsUnderived(fields: seq<FormField>) {
    forall i, j :: 0 <= i < |fields| && 0 <= j < |fields| && AgeField(fields[i]) && fields[j].isDerived ==>
      fields[i].parentFields[0] != fields[j].id
  }

  /**
   The effect re-runs on its own write, so its result must be a fixed point:
   when birth dates come from non-derived fields, deriving again changes nothing.
   */
  lemma DeriveFixedPoint(fields: seq<FormField>, values: map<string, Value>, todayYear: int)
    requires FirstParentsUnderived(fields)
    ensures Derive(fields, Derive(fields, values, todayYear), todayYear) == Derive(fields, values, todayYear)
  {
    var w := DeriveWrites(fields, values, todayYear);
    var values' := Derive(fields, values, todayYear);
    WriteAllSpec(w, values);
    forall i | 0 <= i < |fields| ensures DeriveEntry(fields[i], values', todayYear) == DeriveEntry(fields[i], values, todayYear) {
      if AgeField(fields[i]) {
        var p := fields[i].parentFields[0];
        assert !Written(w, p);
        assert Get(values', p) == Get(values, p);
      }
      DeriveEntryReadsParent(fields[i], values', values, todayYear);
    }
    assert DeriveWrites(fields, values', todayYear) == w;
    WriteAllTwice(w, values);
  }

  /** What deriving writes for a field depends on the value map only through its first parent. */
  lemma DeriveEntryReadsParent(f: FormField, a: map<string, Value>, b: map<string, Value>, todayYear: int)
    requires AgeField(f) ==> Get(a, f.parentFields[0]) == Get(b, f.parentFields[0])
    ensures DeriveEntry(f, a, todayYear) == DeriveEntry(f, b, todayYear)
  {
  }

  /** Born in 2000, the age shown in 2024 is "24". */
  lemma AgeExample()
    ensures AgeText(2024, "2000-01-01") == "24"
  {
    var s := "2000-01-01";
    assert s[..4] == "2000";
    assert AllDigits(s[..4]);
    assert ParseDigits("2000") == 2000 by {
      assert "2000"[..3] == "200";
      assert "200"[..2] == "20";
      assert "20"[..1] == "2";
      assert "2"[..0] == "";
    }
    assert NatToString(24) == NatToString(2) + [DigitChar(4)];
  }

  // ---------------------------------------------------------------- change, blur, submit

  predicate HasId(f: FormField, id: string) {
    f.id == id
  }

  /** The first field of the previewed form with the given id. */
  function FieldById(form: Option<Form>, id: string): (r: Option<FormField>)
    ensures r.Some? ==> form.Some? && r.value in form.value.fields && r.value.id == id
    ensures r.Some? ==> exists i :: 0 <= i < |form.value.fields| && r.value == form.value.fields[i]
                                    && forall j :: 0 <= j < i ==> form.value.fields[j].id != id
    ensures r.None? <==> form.None? || forall i :: 0 <= i < |form.value.fields| ==> form.value.fields[i].id != id
  {
    match form
    case None => None
    case Some(f) => FindWhere(f.fields, (x: FormField) => x.id == id)
  }

  /**
   `handleFieldChange`: stores the new value and, when the form has a field with
   that id, replaces that field's messages by the validation of the new value.
   */
  function FieldChange(form: Option<Form>, s: Session, id: string, v: Value): (r: Session)
    ensures r.values.Keys == s.values.Keys + {id}
    ensures r.values[id] == v
    ensures forall k :: k in s.values && k != id ==> r.values[k] == s.values[k]
    ensures FieldById(form, id).None? ==> r.errors == s.errors
    ensures FieldById(form, id).Some? ==> r.errors == s.errors[id := ValidateField(FieldById(form, id).value, Some(v))]
    ensures r.touched == s.touched
  {
    var errors := match FieldById(form, id)
      case None => s.errors
      case Some(field) => s.errors[id := ValidateField(field, Some(v))];
    Session(s.values[id := v], errors, s.touched)
  }

  /** After a change, the messages kept for that field are the validation of the value kept for it. */
  lemma FieldChangeAgrees(form: Option<Form>, s: Session, id: string, v: Value)
    requires FieldById(form, id).Some?
    ensures var r := FieldChange(form, s, id, v);
      id in r.errors && r.errors[id] == ValidateField(FieldById(form, id).value, Get(r.values, id))
  {
  }

  /** `handleFieldBlur`: marks one field touched. */
  function FieldBlur(s: Session, id: string): (r: Session)
    ensures r.touched.Keys == s.touched.Keys + {id} && r.touched[id]
    ensures forall k :: k in s.touched && k != id ==> r.touched[k] == s.touched[k]
    ensures r.values == s.values && r.errors == s.errors
  {
    s.(touched := s.touched[id := true])
  }

  /** The messages a field has for the value the session holds for it. */
  function FieldErrors(f: FormField, values: map<string, Value>): seq<string> {
    ValidateField(f, Get(values, f.id))
  }

  /** The messages of each field, read from a value map. */
  function ErrorsOf(values: map<string, Value>): FormField -> seq<string> {
    (f: FormField) => FieldErrors(f, values)
  }

  /** One write per field: its messages when it has any, nothing otherwise. */
  function ErrorWrites(fields: seq<FormField>, errs: FormField -> seq<string>): (w: seq<(string, Option<seq<string>>)>)
    ensures |w| == |fields|
    ensures forall i :: 0 <= i < |w| ==> w[i].0 == fields[i].id
    ensures forall i :: 0 <= i < |w| ==> w[i].1 == if errs(fields[i]) != [] then Some(errs(fields[i])) else None
  {
    seq(|fields|, i requires 0 <= i < |fields| =>
      (fields[i].id, if errs(fields[i]) != [] then Some(errs(fields[i])) else None))
  }

  /** The error map built from per-field messages: an entry for every field that has some. */
  function ErrorMap(fields: seq<FormField>, errs: FormField -> seq<string>): map<string, seq<string>> {
    WriteAll(ErrorWrites(fields, errs), map[])
  }

  function TouchWrites(fields: seq<FormField>): (w: seq<(string, Option<bool>)>)
    ensures |w| == |fields|
    ensures forall i :: 0 <= i < |w| ==> w[i] == (fields[i].id, Some(true))
  {
    seq(|fields|, i requires 0 <= i < |fields| => (fields[i].id, Some(true)))
  }

  /** The error map a submit builds: an entry for every field that has messages. */
  function SubmitErrors(fields: seq<FormField>, values: map<string, Value>): map<string, seq<string>> {
    ErrorMap(fields, ErrorsOf(values))
  }

  /** The touched map a submit builds: every field of the form. */
  function TouchAll(fields: seq<FormField>): map<string, bool> {
    WriteAll(TouchWrites(fields), map[])
  }

  /**
   `handleSubmit`: validates every field, replaces the error map by the fields
   that have messages, marks every field touched, and reports whether the form
   was submitted (no field had a message). With no form nothing happens.
   */
  function Submit(form: Option<Form>, s: Session): (Session, bool) {
    match form
    case None => (s, false)
    case Some(f) =>
      var hasErrors := exists i | 0 <= i < |f.fields| :: FieldErrors(f.fields[i], s.values) != [];
      (Session(s.values, SubmitErrors(f.fields, s.values), TouchAll(f.fields)), !hasErrors)
  }

  /** The error map has an entry exactly for the fields with messages. */
  lemma ErrorMapKeys(fields: seq<FormField>, errs: FormField -> seq<string>)
    ensures forall k :: k in ErrorMap(fields, errs) <==>
      exists i :: 0 <= i < |fields| && fields[i].id == k && errs(fields[i]) != []
  {
    var ew := ErrorWrites(fields, errs);
    WriteAllSpec(ew, map[]);
    forall k ensures Written(ew, k) <==> exists i :: 0 <= i < |fields| && fields[i].id == k && errs(fields[i]) != [] {
      if Written(ew, k) {
        var i :| 0 <= i < |ew| && ew[i].0 == k && ew[i].1.Some?;
        assert fields[i].id == k;
      }
      if exists i :: 0 <= i < |fields| && fields[i].id == k && errs(fields[i]) != [] {
        var i :| 0 <= i < |fields| && fields[i].id == k && errs(fields[i]) != [];
        assert ew[i].0 == k && ew[i].1.Some?;
      }
    }
  }

  /** Every entry of the error map is non-empty; for unique ids it is that field's messages. */
  lemma ErrorMapEntries(fields: seq<FormField>, errs: FormField -> seq<string>)
    ensures forall k :: k in ErrorMap(fields, errs) ==> ErrorMap(fields, errs)[k] != []
    ensures UniqueIds(fields) ==> forall i :: 0 <= i < |fields| && errs(fields[i]) != [] ==>
      fields[i].id in ErrorMap(fields, errs) && ErrorMap(fields, errs)[fields[i].id] == errs(fields[i])
  {
    var ew := ErrorWrites(fields, errs);
    var r := ErrorMap(fields, errs);
    WriteAllSpec(ew, map[]);
    forall k | k in r ensures r[k] != [] {
      var i :| 0 <= i < |ew| && ew[i].0 == k && ew[i].1.Some?;
      var last := LastIndexTo(ew, i);
    }
    if UniqueIds(fields) {
      forall i | 0 <= i < |fields| && errs(fields[i]) != [] ensures LastWrite(ew, i) {
      }
    }
  }

  /** The error map is empty exactly when no field has a message. */
  lemma ErrorMapEmpty(fields: seq<FormField>, errs: FormField -> seq<string>)
    ensures |ErrorMap(fields, errs)| == 0 <==> forall i :: 0 <= i < |fields| ==> errs(fields[i]) == []
  {
    ErrorMapKeys(fields, errs);
    if exists i :: 0 <= i < |fields| && errs(fields[i]) != [] {
      var i :| 0 <= i < |fields| && errs(fields[i]) != [];
      assert fields[i].id in ErrorMap(fields, errs);
    }
  }

  /** The submit error map has an entry exactly for the fields with messages. */
  lemma SubmitErrorsKeys(fields: seq<FormField>, values: map<string, Value>)
    ensures forall k :: k in SubmitErrors(fields, values) <==>
      exists i :: 0 <= i < |fields| && fields[i].id == k && FieldErrors(fields[i], values) != []
  {
    ErrorMapKeys(fields, ErrorsOf(values));
  }

  /** Every entry of the submit error map is non-empty; for unique ids it is that field's messages. */
  lemma SubmitErrorsEntries(fields: seq<FormField>, values: map<string, Value>)
    ensures forall k :: k in SubmitErrors(fields, values) ==> SubmitErrors(fields, values)[k] != []
    ensures UniqueIds(fields) ==> forall i :: 0 <= i < |fields| && FieldErrors(fields[i], values) != [] ==>
      fields[i].id in SubmitErrors(fields, values) && SubmitErrors(fields, values)[fields[i].id] == FieldErrors(fields[i], values)
  {
    ErrorMapEntries(fields, ErrorsOf(values));
  }

  /** A submit touches exactly the fields of the form. */
  lemma TouchAllSpec(fields: seq<FormField>)
    ensures forall k :: k in TouchAll(fields) <==> exists i :: 0 <= i < |fields| && fields[i].id == k
    ensures forall k :: k in TouchAll(fields) ==> TouchAll(fields)[k]
  {
    var tw := TouchWrites(fields);
    WriteAllSpec(tw, map[]);
    forall k ensures Written(tw, k) <==> exists i :: 0 <= i < |fields| && fields[i].id == k {
      if exists i :: 0 <= i < |fields| && fields[i].id == k {
        var i :| 0 <= i < |fields| && fields[i].id == k;
        assert tw[i].0 == k;
      }
    }
    forall k | k in TouchAll(fields) ensures TouchAll(fields)[k] {
      var i :| 0 <= i < |tw| && tw[i].0 == k && tw[i].1.Some?;
      var last := LastIndexTo(tw, i);
    }
  }

  /**
   A submit keeps the values, builds the error and touched maps, and goes
   through exactly when no field has a message, which is exactly when the error
   map is empty. Without a form it changes nothing and does not go through.
   */
  lemma SubmitSpec(form: Option<Form>, s: Session)
    ensures form.None? ==> Submit(form, s) == (s, false)
    ensures form.Some? ==>
      && Submit(form, s).0 == Session(s.values, SubmitErrors(form.value.fields, s.values), TouchAll(form.value.fields))
      && (Submit(form, s).1 <==> forall i :: 0 <= i < |form.value.fields| ==> FieldErrors(form.value.fields[i], s.values) == [])
      && (Submit(form, s).1 <==> |SubmitErrors(form.value.fields, s.values)| == 0)
  {
    if form.Some? {
      ErrorMapEmpty(form.value.fields, ErrorsOf(s.values));
    }
  }
}

=== FILE: store.dfy ===
/**
 The form-builder store: each reducer of the slice as a pure `State -> State`
 function. Persisting the saved forms after `saveForm` and `deleteForm` is a
 write to browser storage with no effect on the state, so it is not modelled;
 the saved forms the store starts with are a parameter.
 */
module Store {
  import opened Common
  import opened Types

  /** The state the store starts in, given what browser storage held. */
  function InitialState(stored: seq<Form>): (r: State)
    ensures r.currentForm.None? && r.savedForms == stored && !r.isPreviewMode
  {
    State(None, stored, false)
  }

  /** `setCurrentForm`: replaces the current form and nothing else. */
  function SetCurrentForm(s: State, form: Option<Form>): (r: State)
    ensures r.currentForm == form
    ensures r.savedForms == s.savedForms && r.isPreviewMode == s.isPreviewMode
  {
    s.(currentForm := form)
  }

  /** `setPreviewMode`: replaces the preview flag and nothing else. */
  function SetPreviewMode(s: State, preview: bool): (r: State)
    ensures r.isPreviewMode == preview
    ensures r.currentForm == s.currentForm && r.savedForms == s.savedForms
  {
    s.(isPreviewMode := preview)
  }

  /** `clearCurrentForm`: drops the current form and nothing else. */
  function ClearCurrentForm(s: State): (r: State)
    ensures r.currentForm.None?
    ensures r.savedForms == s.savedForms && r.isPreviewMode == s.isPreviewMode
  {
    s.(currentForm := None)
  }

  /** Replaces the fields of the current form, which must exist. */
  function WithFields(s: State, fields: seq<FormField>): State
    requires s.currentForm.Some?
  {
    s.(currentForm := Some(s.currentForm.value.(fields := fields)))
  }

  // ---------------------------------------------------------------- addField: push, then a stable sort by order

  /** `s` is sorted by `key`, smallest first. */
  predicate SortedBy<T>(s: seq<T>, key: T -> int) {
    forall i, j :: 0 <= i < j < |s| ==> key(s[i]) <= key(s[j])
  }

  /** Inserts `x` into a list sorted by `key`, after every element whose key is not larger. */
  function InsertBy<T>(x: T, sorted: seq<T>, key: T -> int): (r: seq<T>)
    ensures |r| == |sorted| + 1
  {
    if |sorted| == 0 then [x]
    else if key(x) < key(sorted[0]) then [x] + sorted
    else [sorted[0]] + InsertBy(x, sorted[1..], key)
  }

  lemma {:induction false} InsertByPermutes<T>(x: T, sorted: seq<T>, key: T -> int)
    ensures multiset(InsertBy(x, sorted, key)) == multiset(sorted) + multiset{x}
  {
    if |sorted| > 0 && key(x) >= key(sorted[0]) {
      InsertByPermutes(x, sorted[1..], key);
      assert sorted == [sorted[0]] + sorted[1..];
    }
  }

  lemma {:induction false} InsertBySorted<T>(x: T, sorted: seq<T>, key: T -> int)
    ensures SortedBy(sorted, key) ==> SortedBy(InsertBy(x, sorted, key), key)
  {
    if SortedBy(sorted, key) && |sorted| > 0 && key(x) >= key(sorted[0]) {
      InsertBySorted(x, sorted[1..], key);
      var rest := InsertBy(x, sorted[1..], key);
      InsertByPermutes(x, sorted[1..], key);
      assert forall i :: 0 <= i < |rest| ==> key(sorted[0]) <= key(rest[i]) by {
        forall i | 0 <= i < |rest| ensures key(sorted[0]) <= key(rest[i]) {
          assert rest[i] in multiset(rest);
          if rest[i] != x {
            var j :| 0 <= j < |sorted[1..]| && sorted[1..][j] == rest[i];
            assert sorted[1..][j] == sorted[j + 1];
          }
        }
      }
    }
  }

  /** The elements with key `k`. */
  function KeyIs<T>(key: T -> int, k: int): T -> bool {
    (x: T) => key(x) == k
  }

  lemma SortedTail<T>(s: seq<T>, key: T -> int)
    requires |s| > 0 && SortedBy(s, key)
    ensures SortedBy(s[1..], key)
    ensures forall i :: 0 <= i < |s| ==> key(s[0]) <= key(s[i])
  {
    forall i, j | 0 <= i < j < |s[1..]| ensures key(s[1..][i]) <= key(s[1..][j]) {
      assert s[1..][i] == s[i + 1] && s[1..][j] == s[j + 1];
    }
  }

  /** Nothing in a sorted list whose first key is above `k` has key `k`. */
  lemma NoneWithSmallerKey<T>(sorted: seq<T>, key: T -> int, k: int)
    requires |sorted| > 0 && SortedBy(sorted, key) && k < key(sorted[0])
    ensures Filter(sorted, KeyIs(key, k)) == []
  {
    SortedTail(sorted, key);
    CountAll(sorted, KeyIs(key, k));
  }

  /** Filtering `[x] + sorted` on a key below every key of `sorted` keeps only `x`'s part. */
  lemma FrontKeyFilter<T>(x: T, sorted: seq<T>, key: T -> int, k: int)
    requires |sorted| > 0 && SortedBy(sorted, key) && key(x) < key(sorted[0])
    ensures Filter([x], KeyIs(key, k)) + Filter(sorted, KeyIs(key, k))
         == Filter(sorted, KeyIs(key, k)) + Filter([x], KeyIs(key, k))
  {
    var p := KeyIs(key, k);
    if key(x) == k {
      NoneWithSmallerKey(sorted, key, k);
      assert Filter([x], p) + [] == [] + Filter([x], p);
    } else {
      assert Filter([x], p) == [] by {
        assert !p(x);
      }
      assert [] + Filter(sorted, p) == Filter(sorted, p) + [];
    }
  }

  lemma InsertByStableFront<T>(x: T, sorted: seq<T>, key: T -> int, k: int)
    requires |sorted| > 0 && SortedBy(sorted, key) && key(x) < key(sorted[0])
    ensures Filter(InsertBy(x, sorted, key), KeyIs(key, k)) == Filter(sorted, KeyIs(key, k)) + Filter([x], KeyIs(key, k))
  {
    assert InsertBy(x, sorted, key) == [x] + sorted;
    FilterConcat([x], sorted, KeyIs(key, k));
    FrontKeyFilter(x, sorted, key, k);
  }

  lemma InsertByStableLater<T>(x: T, sorted: seq<T>, key: T -> int, p: T -> bool)
    requires |sorted| > 0 && key(x) >= key(sorted[0])
    requires Filter(InsertBy(x, sorted[1..], key), p) == Filter(sorted[1..], p) + Filter([x], p)
    ensures Filter(InsertBy(x, sorted, key), p) == Filter(sorted, p) + Filter([x], p)
  {
    var rest := InsertBy(x, sorted[1..], key);
    var head := if p(sorted[0]) then [sorted[0]] else [];
    assert InsertBy(x, sorted, key) == [sorted[0]] + rest;
    assert ([sorted[0]] + rest)[1..] == rest;
    assert Filter(InsertBy(x, sorted, key), p) == head + Filter(rest, p);
    assert Filter(sorted, p) == head + Filter(sorted[1..], p);
    AppendAssoc(head, Filter(sorted[1..], p), Filter([x], p));
  }

  lemma {:induction false} InsertByStable<T>(x: T, sorted: seq<T>, key: T -> int, k: int)
    requires SortedBy(sorted, key)
    ensures Filter(InsertBy(x, sorted, key), KeyIs(key, k)) == Filter(sorted, KeyIs(key, k)) + Filter([x], KeyIs(key, k))
  {
    if |sorted| == 0 {
      assert InsertBy(x, sorted, key) == [x];
    } else if key(x) < key(sorted[0]) {
      InsertByStableFront(x, sorted, key, k);
    } else {
      SortedTail(sorted, key);
      InsertByStable(x, sorted[1..], key, k);
      InsertByStableLater(x, sorted, key, KeyIs(key, k));
    }
  }

  /** Insertion sort: inserts the elements of `s`, first to last, into `acc`. */
  function SortInto<T>(s: seq<T>, acc: seq<T>, key: T -> int): (r: seq<T>)
    ensures |r| == |s| + |acc|
  {
    if |s| == 0 then acc
    else SortInto(s[1..], InsertBy(s[0], acc, key), key)
  }

  lemma {:induction false} SortIntoPermutes<T>(s: seq<T>, acc: seq<T>, key: T -> int)
    ensures multiset(SortInto(s, acc, key)) == multiset(s) + multiset(acc)
  {
    if |s| > 0 {
      InsertByPermutes(s[0], acc, key);
      SortIntoPermutes(s[1..], InsertBy(s[0], acc, key), key);
      assert s == [s[0]] + s[1..];
    }
  }

  lemma {:induction false} SortIntoKeepsSorted<T>(s: seq<T>, acc: seq<T>, key: T -> int)
    requires SortedBy(acc, key)
    ensures SortedBy(SortInto(s, acc, key), key)
  {
    if |s| > 0 {
      InsertBySorted(s[0], acc, key);
      SortIntoKeepsSorted(s[1..], InsertBy(s[0], acc, key), key);
    }
  }

  lemma {:induction false} SortIntoStable<T>(s: seq<T>, acc: seq<T>, key: T -> int, k: int)
    requires SortedBy(acc, key)
    ensures Filter(SortInto(s, acc, key), KeyIs(key, k)) == Filter(acc, KeyIs(key, k)) + Filter(s, KeyIs(key, k))
  {
    if |s| > 0 {
      var p := KeyIs(key, k);
      var inserted := InsertBy(s[0], acc, key);
      InsertBySorted(s[0], acc, key);
      calc {
        Filter(SortInto(s, acc, key), p);
        Filter(SortInto(s[1..], inserted, key), p);
        { SortIntoStable(s[1..], inserted, key, k); }
        Filter(inserted, p) + Filter(s[1..], p);
        { InsertByStable(s[0], acc, key, k); }
        Filter(acc, p) + Filter([s[0]], p) + Filter(s[1..], p);
        { FilterConcat([s[0]], s[1..], p); assert [s[0]] + s[1..] == s; }
        Filter(acc, p) + Filter(s, p);
      }
    }
  }

  function Order(f: FormField): int { f.order }

  /** `fields.sort((a, b) => a.order - b.order)`; JavaScript's sort is stable. */
  function SortByOrder(fields: seq<FormField>): (r: seq<FormField>)
    ensures |r| == |fields|
    ensures multiset(r) == multiset(fields)
    ensures SortedBy(r, Order)
  {
    SortIntoPermutes(fields, [], Order);
    SortIntoKeepsSorted(fields, [], Order);
    SortInto(fields, [], Order)
  }

  /**
   The sort is stable: for every order value, the fields with that order appear
   in the result in the same relative order as in the input.
   */
  lemma SortByOrderStable(fields: seq<FormField>, k: int)
    ensures Filter(SortByOrder(fields), KeyIs(Order, k)) == Filter(fields, KeyIs(Order, k))
  {
    SortIntoStable(fields, [], Order, k);
  }

  lemma {:induction false} InsertByAtEnd<T>(x: T, sorted: seq<T>, key: T -> int)
    requires forall i :: 0 <= i < |sorted| ==> key(sorted[i]) <= key(x)
    ensures InsertBy(x, sorted, key) == sorted + [x]
  {
    if |sorted| > 0 {
      InsertByAtEnd(x, sorted[1..], key);
      assert [sorted[0]] + (sorted[1..] + [x]) == sorted + [x];
    }
  }

  lemma {:induction false} SortIntoAlreadySorted<T>(s: seq<T>, acc: seq<T>, key: T -> int)
    requires SortedBy(acc + s, key)
    ensures SortInto(s, acc, key) == acc + s
  {
    if |s| > 0 {
      assert forall i :: 0 <= i < |acc| ==> key(acc[i]) <= key(s[0]) by {
        forall i | 0 <= i < |acc| ensures key(acc[i]) <= key(s[0]) {
          assert (acc + s)[i] == acc[i] && (acc + s)[|acc|] == s[0];
        }
      }
      InsertByAtEnd(s[0], acc, key);
      assert acc + [s[0]] + s[1..] == acc + s;
      SortIntoAlreadySorted(s[1..], acc + [s[0]], key);
    }
  }

  /** Sorting a list already sorted by order leaves it as it is. */
  lemma SortByOrderSorted(fields: seq<FormField>)
    requires SortedBy(fields, Order)
    ensures SortByOrder(fields) == fields
  {
    assert [] + fields == fields;
    SortIntoAlreadySorted(fields, [], Order);
  }

  /**
   `addField`: with no current form nothing changes; otherwise the new field is
   pushed and the list re-sorted by order, so it grows by one, holds exactly the
   old fields plus the new one, and is sorted.
   */
  function AddField(s: State, field: FormField): (r: State)
    ensures s.currentForm.None? ==> r == s
    ensures s.currentForm.Some? ==>
      && r.currentForm.Some?
      && r.currentForm.value == s.currentForm.value.(fields := r.currentForm.value.fields)
      && |r.currentForm.value.fields| == |s.currentForm.value.fields| + 1
      && multiset(r.currentForm.value.fields) == multiset(s.currentForm.value.fields) + multiset{field}
      && SortedBy(r.currentForm.value.fields, Order)
    ensures r.savedForms == s.savedForms && r.isPreviewMode == s.isPreviewMode
  {
    match s.currentForm
    case None => s
    case Some(form) =>
      assert multiset(form.fields + [field]) == multiset(form.fields) + multiset{field};
      WithFields(s, SortByOrder(form.fields + [field]))
  }

  /** Among fields of equal order, `addField` keeps the old ones first and the new one last. */
  lemma AddFieldStable(s: State, field: FormField, k: int)
    requires s.currentForm.Some?
    ensures Filter(AddField(s, field).currentForm.value.fields, KeyIs(Order, k))
         == Filter(s.currentForm.value.fields, KeyIs(Order, k)) + Filter([field], KeyIs(Order, k))
  {
    SortByOrderStable(s.currentForm.value.fields + [field], k);
    FilterConcat(s.currentForm.value.fields, [field], KeyIs(Order, k));
  }

  // ---------------------------------------------------------------- updateField, removeField

  /** Position `i` holds the first field with id `id`. */
  predicate FirstWithId(fields: seq<FormField>, id: string, i: int) {
    0 <= i < |fields| && fields[i].id == id && forall j :: 0 <= j < i ==> fields[j].id != id
  }

  /**
   `updateField`: merges the updates into the first field with the given id and
   leaves every other field alone. With no current form or no such field the
   state is unchanged.
   */
  function UpdateField(s: State, id: string, updates: FieldPatch): (r: State)
    ensures s.currentForm.None? || (forall j :: 0 <= j < |s.currentForm.value.fields| ==> s.currentForm.value.fields[j].id != id) ==> r == s
    ensures s.currentForm.Some? ==>
      && r.currentForm.Some?
      && r.currentForm.value == s.currentForm.value.(fields := r.currentForm.value.fields)
      && |r.currentForm.value.fields| == |s.currentForm.value.fields|
      && forall j :: 0 <= j < |s.currentForm.value.fields| ==>
           r.currentForm.value.fields[j] ==
             if FirstWithId(s.currentForm.value.fields, id, j) then Merge(s.currentForm.value.fields[j], updates)
             else s.currentForm.value.fields[j]
    ensures r.savedForms == s.savedForms && r.isPreviewMode == s.isPreviewMode
  {
    match s.currentForm
    case None => s
    case Some(form) =>
      match IndexWhere(form.fields, (f: FormField) => f.id == id)
      case None => s
      case Some(i) => WithFields(s, form.fields[i := Merge(form.fields[i], updates)])
  }

  function IdIsNot(id: string): FormField -> bool {
    (f: FormField) => f.id != id
  }

  /**
   `removeField`: afterwards no field has the id, every field with another id
   is still there, and the list shrinks by the number of fields removed. The
   kept fields stay in order, as `Filter` distributes over concatenation.
   */
  function RemoveField(s: State, id: string): (r: State)
    ensures s.currentForm.None? ==> r == s
    ensures s.currentForm.Some? ==>
      && r.currentForm.Some?
      && r.currentForm.value == s.currentForm.value.(fields := r.currentForm.value.fields)
      && (forall j :: 0 <= j < |r.currentForm.value.fields| ==> r.currentForm.value.fields[j].id != id)
      && (forall j :: 0 <= j < |s.currentForm.value.fields| && s.currentForm.value.fields[j].id != id ==>
            s.currentForm.value.fields[j] in r.currentForm.value.fields)
      && |r.currentForm.value.fields| == CountWhere(s.currentForm.value.fields, IdIsNot(id))
      && r.currentForm.value.fields == Filter(s.currentForm.value.fields, IdIsNot(id))
      && ((forall j :: 0 <= j < |s.currentForm.value.fields| ==> s.currentForm.value.fields[j].id != id) ==> r == s)
    ensures r.savedForms == s.savedForms && r.isPreviewMode == s.isPreviewMode
  {
    match s.currentForm
    case None => s
    case Some(form) =>
      FilterKeepsAll(form.fields, IdIsNot(id));
      FilterMembers(form.fields, IdIsNot(id));
      WithFields(s, Filter(form.fields, IdIsNot(id)))
  }

  // ---------------------------------------------------------------- reorderFields

  /**
   `reorderFields`: moves the field at `fromIndex` to `toIndex` (with the index
   rules of `Array.prototype.splice`) and sets every field's order to its new
   position. The source fails on a `fromIndex` past the end, which the requires
   rules out.
   */
  function ReorderFields(s: State, fromIndex: int, toIndex: int): (r: State)
    requires s.currentForm.Some? ==> SpliceStart(fromIndex, |s.currentForm.value.fields|) < |s.currentForm.value.fields|
    ensures s.currentForm.None? ==> r == s
    ensures s.currentForm.Some? ==>
      var before := s.currentForm.value.fields;
      && r.currentForm.Some?
      && r.currentForm.value == s.currentForm.value.(fields := r.currentForm.value.fields)
      && |r.currentForm.value.fields| == |before|
      && OrdersArePositions(r.currentForm.value.fields)
      && r.currentForm.value.fields[SpliceStart(toIndex, |before| - 1)]
           == before[SpliceStart(fromIndex, |before|)].(order := SpliceStart(toIndex, |before| - 1))
      && (0 <= fromIndex < |before| && 0 <= toIndex < |before| ==>
            forall p :: 0 <= p < |before| ==>
              r.currentForm.value.fields[p] == before[MoveSource(|before|, fromIndex, toIndex, p)].(order := p))
    ensures r.savedForms == s.savedForms && r.isPreviewMode == s.isPreviewMode
  {
    match s.currentForm
    case None => s
    case Some(form) =>
      ReindexMoveAt(form.fields, fromIndex, toIndex);
      WithFields(s, Reindex(Move(form.fields, fromIndex, toIndex)))
  }

  /**
   For in-range indices, position `p` of a reordered list holds the field that
   the move brings there, with its order set to `p`.
   */
  lemma ReindexMoveAt(fields: seq<FormField>, fromIndex: int, toIndex: int)
    requires SpliceStart(fromIndex, |fields|) < |fields|
    ensures 0 <= fromIndex < |fields| && 0 <= toIndex < |fields| ==>
      forall p :: 0 <= p < |fields| ==>
        Reindex(Move(fields, fromIndex, toIndex))[p] == fields[MoveSource(|fields|, fromIndex, toIndex, p)].(order := p)
  {
    if 0 <= fromIndex < |fields| && 0 <= toIndex < |fields| {
      forall p | 0 <= p < |fields|
        ensures Reindex(Move(fields, fromIndex, toIndex))[p] == fields[MoveSource(|fields|, fromIndex, toIndex, p)].(order := p)
      {
        MoveAt(fields, fromIndex, toIndex, p);
      }
    }
  }

  /** Apart from the orders, the reordered list is a permutation of the old one. */
  lemma ReorderPermutes(s: State, fromIndex: int, toIndex: int)
    requires s.currentForm.Some? && SpliceStart(fromIndex, |s.currentForm.value.fields|) < |s.currentForm.value.fields|
    ensures exists moved :: (multiset(moved) == multiset(s.currentForm.value.fields)
      && ReorderFields(s, fromIndex, toIndex).currentForm.value.fields == Reindex(moved))
  {
    var moved := Move(s.currentForm.value.fields, fromIndex, toIndex);
    MovePermutes(s.currentForm.value.fields, fromIndex, toIndex);
    assert ReorderFields(s, fromIndex, toIndex).currentForm.value.fields == Reindex(moved);
  }

  /** Reindexing after a move does not depend on the orders the fields had before. */
  lemma ReindexMoveReindex(fields: seq<FormField>, fromIndex: nat, toIndex: nat)
    requires fromIndex < |fields| && toIndex < |fields|
    ensures Reindex(Move(Reindex(fields), fromIndex, toIndex)) == Reindex(Move(fields, fromIndex, toIndex))
  {
    var a := Move(Reindex(fields), fromIndex, toIndex);
    var b := Move(fields, fromIndex, toIndex);
    forall p | 0 <= p < |fields| ensures a[p].(order := p) == b[p].(order := p) {
      MoveAt(Reindex(fields), fromIndex, toIndex, p);
      MoveAt(fields, fromIndex, toIndex, p);
    }
  }

  /**
   Dragging a field back where it came from restores the list, when every
   field's order was its position to begin with.
   */
  lemma ReorderBack(s: State, fromIndex: nat, toIndex: nat)
    requires s.currentForm.Some? && OrdersArePositions(s.currentForm.value.fields)
    requires fromIndex < |s.currentForm.value.fields| && toIndex < |s.currentForm.value.fields|
    ensures ReorderFields(ReorderFields(s, fromIndex, toIndex), toIndex, fromIndex) == s
  {
    var fields := s.currentForm.value.fields;
    var once := Reindex(Move(fields, fromIndex, toIndex));
    ReindexMoveReindex(Move(fields, fromIndex, toIndex), toIndex, fromIndex);
    MoveBack(fields, fromIndex, toIndex);
    ReindexIdempotent(fields);
  }

  // ---------------------------------------------------------------- saved forms

  /**
   `saveForm`: an upsert by id. A saved form with the same id (the first one) is
   replaced in place; otherwise the form is appended. The current form is
   cleared.
   */
  function SaveForm(s: State, form: Form): (r: State)
    ensures r.currentForm.None? && r.isPreviewMode == s.isPreviewMode
    ensures (exists j :: 0 <= j < |s.savedForms| && s.savedForms[j].id == form.id) ==>
      && |r.savedForms| == |s.savedForms|
      && forall j :: 0 <= j < |s.savedForms| ==>
           r.savedForms[j] == if FirstFormWithId(s.savedForms, form.id, j) then form else s.savedForms[j]
    ensures (forall j :: 0 <= j < |s.savedForms| ==> s.savedForms[j].id != form.id) ==>
      r.savedForms == s.savedForms + [form]
  {
    var saved := match IndexWhere(s.savedForms, (f: Form) => f.id == form.id)
      case Some(i) => s.savedForms[i := form]
      case None => s.savedForms + [form];
    State(None, saved, s.isPreviewMode)
  }

  /** Position `i` holds the first saved form with id `id`. */
  predicate FirstFormWithId(forms: seq<Form>, id: string, i: int) {
    0 <= i < |forms| && forms[i].id == id && forall j :: 0 <= j < i ==> forms[j].id != id
  }

  /**
   `loadForm`: makes the first saved form with the id current; with no such
   form the state is unchanged.
   */
  function LoadForm(s: State, id: string): (r: State)
    ensures (forall j :: 0 <= j < |s.savedForms| ==> s.savedForms[j].id != id) ==> r == s
    ensures forall j :: FirstFormWithId(s.savedForms, id, j) ==> r.currentForm == Some(s.savedForms[j])
    ensures r.savedForms == s.savedForms && r.isPreviewMode == s.isPreviewMode
  {
    match FindWhere(s.savedForms, (f: Form) => f.id == id)
    case None => s
    case Some(f) => s.(currentForm := Some(f))
  }

  /** A form just saved is the one loading its id brings back. */
  lemma SaveThenLoad(s: State, form: Form)
    ensures LoadForm(SaveForm(s, form), form.id).currentForm == Some(form)
  {
    var saved := SaveForm(s, form).savedForms;
    if exists j :: 0 <= j < |s.savedForms| && s.savedForms[j].id == form.id {
      var i := IndexWhere(s.savedForms, (f: Form) => f.id == form.id).value;
      assert FirstFormWithId(saved, form.id, i);
    } else {
      assert FirstFormWithId(saved, form.id, |s.savedForms|);
    }
  }

  function FormIdIsNot(id: string): Form -> bool {
    (f: Form) => f.id != id
  }

  /**
   `deleteForm`: removes every saved form with the id and keeps the others;
   deleting an id that is not saved changes nothing.
   */
  function DeleteForm(s: State, id: string): (r: State)
    ensures forall j :: 0 <= j < |r.savedForms| ==> r.savedForms[j].id != id
    ensures forall j :: 0 <= j < |s.savedForms| && s.savedForms[j].id != id ==> s.savedForms[j] in r.savedForms
    ensures |r.savedForms| == CountWhere(s.savedForms, FormIdIsNot(id))
    ensures r.savedForms == Filter(s.savedForms, FormIdIsNot(id))
    ensures (forall j :: 0 <= j < |s.savedForms| ==> s.savedForms[j].id != id) ==> r == s
    ensures r.currentForm == s.currentForm && r.isPreviewMode == s.isPreviewMode
  {
    FilterKeepsAll(s.savedForms, FormIdIsNot(id));
    FilterMembers(s.savedForms, FormIdIsNot(id));
    s.(savedForms := Filter(s.savedForms, FormIdIsNot(id)))
  }
}

=== FILE: strings.dfy ===
/**
 The string primitives of JavaScript that the form builder relies on:
 whitespace as `String.prototype.trim` and the regular-expression class `\s`
 see it, `trim`, `includes`, the digit class `\d`, `Number(...)` on decimal
 integer text and `toString()` on integers.
 */
module Strings {
  import opened Common

  /** JavaScript's WhiteSpace and LineTerminator characters: what `trim` strips and `\s` matches. */
  predicate IsWhitespace(c: char) {
    || c == '\t' || c == '\n' || c == '\U{000B}' || c == '\U{000C}' || c == '\r' || c == ' '
    || c == '\U{00A0}' || c == '\U{1680}' || ('\U{2000}' <= c <= '\U{200A}')
    || c == '\U{2028}' || c == '\U{2029}' || c == '\U{202F}' || c == '\U{205F}'
    || c == '\U{3000}' || c == '\U{FEFF}'
  }

  /** Every character of `s` is whitespace (in particular, `s` may be empty). */
  predicate AllWhitespace(s: string) {
    forall i :: 0 <= i < |s| ==> IsWhitespace(s[i])
  }

  /** Drops leading whitespace. */
  function TrimStart(s: string): (r: string)
    ensures |r| <= |s| && r == s[|s| - |r|..]
    ensures AllWhitespace(s[..|s| - |r|])
    ensures |r| > 0 ==> !IsWhitespace(r[0])
  {
    if |s| > 0 && IsWhitespace(s[0]) then
      var r := TrimStart(s[1..]);
      assert s[..|s| - |r|] == [s[0]] + s[1..][..|s[1..]| - |r|];
      r
    else s
  }

  /** Drops trailing whitespace. */
  function TrimEnd(s: string): (r: string)
    ensures |r| <= |s| && r == s[..|r|]
    ensures AllWhitespace(s[|r|..])
    ensures |r| > 0 ==> !IsWhitespace(r[|r| - 1])
  {
    if |s| > 0 && IsWhitespace(s[|s| - 1]) then
      var r := TrimEnd(s[..|s| - 1]);
      assert s[|r|..] == s[..|s| - 1][|r|..] + [s[|s| - 1]];
      r
    else s
  }

  /** `String.prototype.trim`. */
  function Trim(s: string): (r: string)
    ensures |r| <= |s|
    ensures r == "" <==> AllWhitespace(s)
    ensures |r| > 0 ==> !IsWhitespace(r[0]) && !IsWhitespace(r[|r| - 1])
    ensures exists i, j :: 0 <= i <= j <= |s| && r == s[i..j]
                           && AllWhitespace(s[..i]) && AllWhitespace(s[j..])
  {
    var t := TrimStart(s);
    var r := TrimEnd(t);
    TrimBlank(s, t, r);
    TrimSlice(s, t, r);
    r
  }

  /** What trimming keeps is a slice of the input with only whitespace cut on either side. */
  lemma TrimSlice(s: string, t: string, r: string)
    requires |t| <= |s| && t == s[|s| - |t|..] && AllWhitespace(s[..|s| - |t|])
    requires |r| <= |t| && r == t[..|r|] && AllWhitespace(t[|r|..])
    ensures exists i, j :: 0 <= i <= j <= |s| && r == s[i..j]
                           && AllWhitespace(s[..i]) && AllWhitespace(s[j..])
  {
    var i := |s| - |t|;
    var j := i + |r|;
    assert r == s[i..j];
    assert s[j..] == t[|r|..];
  }

  lemma TrimBlank(s: string, t: string, r: string)
    requires |t| <= |s| && t == s[|s| - |t|..] && AllWhitespace(s[..|s| - |t|])
    requires |r| <= |t| && r == t[..|r|] && AllWhitespace(t[|r|..])
    requires |t| > 0 ==> !IsWhitespace(t[0])
    ensures r == "" <==> AllWhitespace(s)
  {
    var k := |s| - |t|;
    if r == "" {
      if |t| > 0 {
        assert false;
      }
      assert s == s[..k];
    } else {
      assert !IsWhitespace(s[k]);
    }
  }

  /** The digit class `\d` of JavaScript regular expressions: ASCII `0`-`9`. */
  predicate IsDigit(c: char) {
    '0' <= c <= '9'
  }

  /** `/\d/.test(s)`. */
  predicate HasDigit(s: string) {
    exists i :: 0 <= i < |s| && IsDigit(s[i])
  }

  predicate AllDigits(s: string) {
    forall i :: 0 <= i < |s| ==> IsDigit(s[i])
  }

  function DigitChar(d: nat): (c: char)
    requires d < 10
    ensures IsDigit(c)
  {
    ('0' as int + d) as char
  }

  function DigitValue(c: char): (d: nat)
    requires IsDigit(c)
    ensures d < 10 && DigitChar(d) == c
  {
    (c as int - '0' as int) as nat
  }

  /** The value of a string of decimal digits, most significant first. */
  function ParseDigits(s: string): nat
    requires AllDigits(s)
  {
    if |s| == 0 then 0 else 10 * ParseDigits(s[..|s| - 1]) + DigitValue(s[|s| - 1])
  }

  /** The decimal text of a natural number, as `toString()` prints it. */
  function NatToString(n: nat): (r: string)
    ensures |r| > 0 && AllDigits(r)
    ensures |r| == 1 || r[0] != '0'
  {
    if n < 10 then [DigitChar(n)] else NatToString(n / 10) + [DigitChar(n % 10)]
  }

  /** Reading back the printed text of a natural number yields the number. */
  lemma {:induction false} ParseNatToString(n: nat)
    ensures ParseDigits(NatToString(n)) == n
  {
    if n >= 10 {
      var s := NatToString(n);
      assert s[..|s| - 1] == NatToString(n / 10);
      ParseNatToString(n / 10);
    }
  }

  /** `Number.prototype.toString()` of an integer. */
  function IntToString(n: int): (r: string)
    ensures |r| > 0
    ensures n >= 0 <==> IsDigit(r[0])
  {
    if n < 0 then "-" + NatToString(-n) else NatToString(n)
  }

  /**
   `Number(s)` for text that denotes a decimal integer: surrounding whitespace
   is ignored, blank text is `0`, and an optional sign may precede the digits.
   Anything else is `None` (not a number).
   */
  function ParseInteger(s: string): (r: Option<int>)
    ensures AllWhitespace(s) ==> r == Some(0)
  {
    ParseLiteral(Trim(s))
  }

  /** The integer literal `Number` reads once the surrounding whitespace is gone. */
  function ParseLiteral(t: string): Option<int> {
    if t == "" then Some(0)
    else if AllDigits(t) then Some(ParseDigits(t))
    else if |t| > 1 && t[0] == '+' && AllDigits(t[1..]) then Some(ParseDigits(t[1..]))
    else if |t| > 1 && t[0] == '-' && AllDigits(t[1..]) then Some(0 - ParseDigits(t[1..]))
    else None
  }

  /** Text with no whitespace at either end is read by `Number` as it stands. */
  lemma ParseUntrimmed(s: string)
    requires |s| > 0 && !IsWhitespace(s[0]) && !IsWhitespace(s[|s| - 1])
    ensures ParseInteger(s) == ParseLiteral(s)
  {
    TrimNoop(s);
  }

  /** A minus sign followed by digits is the negated digits. */
  lemma ParseMinus(digits: string)
    requires |digits| > 0 && AllDigits(digits)
    ensures ParseLiteral("-" + digits) == Some(0 - ParseDigits(digits))
  {
    var s := "-" + digits;
    assert s[1..] == digits;
    assert !IsDigit(s[0]);
  }

  /** The printed text of a positive integer after a minus sign denotes its negation. */
  lemma NegativeLiteral(m: nat)
    requires m > 0
    ensures ParseLiteral("-" + NatToString(m)) == Some(0 - m)
  {
    ParseMinus(NatToString(m));
    ParseNatToString(m);
  }

  /** The printed text of a natural number denotes the number. */
  lemma NatLiteral(m: nat)
    ensures ParseLiteral(NatToString(m)) == Some(m)
  {
    ParseNatToString(m);
  }

  /** The printed text of an integer, as a literal, denotes the integer. */
  lemma PrintedLiteral(n: int)
    ensures ParseLiteral(IntToString(n)) == Some(n)
  {
    if n < 0 {
      NegativeLiteral(-n);
    } else {
      NatLiteral(n);
    }
  }

  /** The printed text of an integer neither starts nor ends with whitespace. */
  lemma PrintedEdges(n: int)
    ensures var s := IntToString(n);
      !IsWhitespace(s[0]) && !IsWhitespace(s[|s| - 1])
  {
    var s := IntToString(n);
    var digits := NatToString(if n < 0 then -n else n);
    assert s[|s| - 1] == digits[|digits| - 1];
  }

  /** Printing an integer and reading it back with `Number` is the identity. */
  lemma IntToStringRoundTrip(n: int)
    ensures ParseInteger(IntToString(n)) == Some(n)
  {
    PrintedLiteral(n);
    PrintedEdges(n);
    ParseUntrimmed(IntToString(n));
  }

  /** Trimming a string that neither starts nor ends with whitespace changes nothing. */
  lemma TrimNoop(s: string)
    requires |s| > 0 && !IsWhitespace(s[0]) && !IsWhitespace(s[|s| - 1])
    ensures Trim(s) == s
  {
    assert TrimStart(s) == s;
    assert TrimEnd(s) == s;
  }

  /**
   The first position holding `c`: the scan that splits an address at its `@`
   when the email pattern is matched by hand.
   */
  function IndexOf(s: string, c: char): (r: Option<nat>)
    ensures r.Some? ==> r.value < |s| && s[r.value] == c
    ensures r.Some? ==> forall k :: 0 <= k < r.value ==> s[k] != c
    ensures r.None? <==> forall k :: 0 <= k < |s| ==> s[k] != c
  {
    IndexWhere(s, (x: char) => x == c)
  }

  /** `s.startsWith(prefix)`. */
  predicate StartsWith(s: string, prefix: string) {
    |prefix| <= |s| && s[..|prefix|] == prefix
  }

  /** `sub` occurs in `s` starting at position `i`. */
  predicate OccursAt(s: string, sub: string, i: int) {
    0 <= i && i + |sub| <= |s| && s[i..i + |sub|] == sub
  }

  /** `String.prototype.includes`: `sub` occurs somewhere in `s`. */
  function Includes(s: string, sub: string): (r: bool)
    ensures r <==> exists i :: OccursAt(s, sub, i)
    decreases |s|
  {
    if StartsWith(s, sub) then
      assert OccursAt(s, sub, 0);
      true
    else if |s| == 0 then
      false
    else
      var r := Includes(s[1..], sub);
      assert forall i :: OccursAt(s, sub, i) && i > 0 ==> OccursAt(s[1..], sub, i - 1);
      assert forall i :: OccursAt(s[1..], sub, i) ==> OccursAt(s, sub, i + 1);
      r
  }
}

=== FILE: summary.dfy ===
/**
 The saved-forms page: the per-type and required/derived field counts shown
 for each form, and the delete confirmation dialog.
 */
module Summary {
  import opened Common
  import opened Types
  import opened Store

  /** Every field type, each once. */
  const AllTypes: seq<FieldType> := [Text, Number, Textarea, Select, Radio, Checkbox, Date]

  /** The number of fields of type `t`. */
  function TypeCount(fields: seq<FormField>, t: FieldType): nat {
    if |fields| == 0 then 0
    else TypeCount(fields[..|fields| - 1], t) + (if fields[|fields| - 1].fieldType == t then 1 else 0)
  }

  /** The per-type counts added up over every type. */
  function TypeTotal(fields: seq<FormField>): nat {
    TypeCount(fields, Text) + TypeCount(fields, Number) + TypeCount(fields, Textarea)
      + TypeCount(fields, Select) + TypeCount(fields, Radio) + TypeCount(fields, Checkbox)
      + TypeCount(fields, Date)
  }

  /** The sum of the entries of a count table over every type, a missing entry being 0. */
  function Total(counts: map<FieldType, nat>): nat {
    Get(counts, Text).GetOr(0) + Get(counts, Number).GetOr(0) + Get(counts, Textarea).GetOr(0)
      + Get(counts, Select).GetOr(0) + Get(counts, Radio).GetOr(0) + Get(counts, Checkbox).GetOr(0)
      + Get(counts, Date).GetOr(0)
  }

  /** One more field adds one to the count of its own type and nothing to the others. */
  lemma TypeCountSnoc(s: seq<FormField>, x: FormField, t: FieldType)
    ensures TypeCount(s + [x], t) == TypeCount(s, t) + (if x.fieldType == t then 1 else 0)
  {
    assert (s + [x])[..|s|] == s;
  }

  /** Every field has exactly one type, so the per-type counts add up to the number of fields. */
  lemma {:induction false} TypeCountsSum(fields: seq<FormField>)
    ensures TypeTotal(fields) == |fields|
  {
    if |fields| > 0 {
      var s := fields[..|fields| - 1];
      var x := fields[|fields| - 1];
      assert fields == s + [x];
      TypeCountsSum(s);
      TypeCountSnoc(s, x, Text);
      TypeCountSnoc(s, x, Number);
      TypeCountSnoc(s, x, Textarea);
      TypeCountSnoc(s, x, Select);
      TypeCountSnoc(s, x, Radio);
      TypeCountSnoc(s, x, Checkbox);
      TypeCountSnoc(s, x, Date);
    }
  }

  /** A table that holds every type's count, and nothing for a type no field has, adds up to the number of fields. */
  lemma TotalOfCounts(fields: seq<FormField>, counts: map<FieldType, nat>)
    requires forall t :: t in counts <==> TypeCount(fields, t) > 0
    requires forall t :: t in counts ==> counts[t] == TypeCount(fields, t)
    ensures Total(counts) == |fields|
  {
    assert forall t :: Get(counts, t).GetOr(0) == TypeCount(fields, t);
    TypeCountsSum(fields);
  }

  /**
   `getFieldTypeCounts`: a table from type to count with an entry for a type
   exactly when some field has it, each entry the number of fields of that
   type, the entries adding up to the number of fields.
   */
  method FieldTypeCounts(fields: seq<FormField>) returns (counts: map<FieldType, nat>)
    ensures forall t :: t in counts <==> TypeCount(fields, t) > 0
    ensures forall t :: t in counts ==> counts[t] == TypeCount(fields, t)
    ensures Total(counts) == |fields|
  {
    counts := map[];
    var i := 0;
    while i < |fields|
      invariant 0 <= i <= |fields|
      invariant forall t :: t in counts <==> TypeCount(fields[..i], t) > 0
      invariant forall t :: t in counts ==> counts[t] == TypeCount(fields[..i], t)
    {
      var t := fields[i].fieldType;
      assert fields[..i + 1] == fields[..i] + [fields[i]];
      forall u ensures TypeCount(fields[..i + 1], u) == TypeCount(fields[..i], u) + (if u == t then 1 else 0) {
        TypeCountSnoc(fields[..i], fields[i], u);
      }
      counts := counts[t := Get(counts, t).GetOr(0) + 1];
      i := i + 1;
    }
    assert fields[..i] == fields;
    TotalOfCounts(fields, counts);
  }

  function IsRequired(f: FormField): bool { f.required }

  function IsDerived(f: FormField): bool { f.isDerived }

  /** The number of required fields: at most all of them, and all of them exactly when every field is required. */
  function RequiredCount(fields: seq<FormField>): (r: nat)
    ensures r <= |fields|
    ensures r == |fields| <==> forall j :: 0 <= j < |fields| ==> fields[j].required
    ensures r == 0 <==> forall j :: 0 <= j < |fields| ==> !fields[j].required
  {
    CountWhere(fields, IsRequired)
  }

  /** The number of derived fields: at most all of them, and none exactly when no field is derived. */
  function DerivedCount(fields: seq<FormField>): (r: nat)
    ensures r <= |fields|
    ensures r == |fields| <==> forall j :: 0 <= j < |fields| ==> fields[j].isDerived
    ensures r == 0 <==> forall j :: 0 <= j < |fields| ==> !fields[j].isDerived
  {
    CountWhere(fields, IsDerived)
  }

  /** The delete confirmation dialog: whether it is open and which form it asks about. */
  datatype DeleteDialog = DeleteDialog(open: bool, pending: Option<Form>)

  /** The delete button on a form's card: opens the dialog on that form. */
  function RequestDelete(form: Form): (r: DeleteDialog)
    ensures r.open && r.pending == Some(form)
  {
    DeleteDialog(true, Some(form))
  }

  /**
   `confirmDelete`: with a pending form, every saved form with its id is
   deleted and the dialog closes and forgets it; without one nothing happens.
   */
  function ConfirmDelete(s: State, dialog: DeleteDialog): (r: (State, DeleteDialog))
    ensures dialog.pending.None? ==> r == (s, dialog)
    ensures dialog.pending.Some? ==>
      && r.1 == DeleteDialog(false, None)
      && r.0.currentForm == s.currentForm && r.0.isPreviewMode == s.isPreviewMode
      && (forall j :: 0 <= j < |r.0.savedForms| ==> r.0.savedForms[j].id != dialog.pending.value.id)
      && (forall j :: 0 <= j < |s.savedForms| && s.savedForms[j].id != dialog.pending.value.id ==>
            s.savedForms[j] in r.0.savedForms)
      && r.0.savedForms == Filter(s.savedForms, FormIdIsNot(dialog.pending.value.id))
  {
    match dialog.pending
    case None => (s, dialog)
    case Some(form) => (DeleteForm(s, form.id), DeleteDialog(false, None))
  }

  /** After confirming a requested delete, loading the deleted form's id finds nothing. */
  lemma DeletedFormCannotLoad(s: State, form: Form)
    ensures var after := ConfirmDelete(s, RequestDelete(form)).0;
      LoadForm(after, form.id) == after
  {
  }

  /** "View": makes the saved form current, for the preview page. */
  function ViewForm(s: State, form: Form): (r: State)
    ensures forall j :: FirstFormWithId(s.savedForms, form.id, j) ==> r.currentForm == Some(s.savedForms[j])
    ensures r.savedForms == s.savedForms && r.isPreviewMode == s.isPreviewMode
  {
    LoadForm(s, form.id)
  }

  /** "Edit": makes the given form current, for the editor page. */
  function EditForm(s: State, form: Form): (r: State)
    ensures r.currentForm == Some(form)
    ensures r.savedForms == s.savedForms && r.isPreviewMode == s.isPreviewMode
  {
    SetCurrentForm(s, Some(form))
  }
}

=== FILE: types.dfy ===
/**
 The data model of the form builder: field types, validation rules, fields,
 forms, the store's state, and the partial field record (`Partial<FormField>`)
 that the field dialog edits and `updateField` merges.
 */
module Types {
  import opened Common

  datatype FieldType = Text | Number | Textarea | Select | Radio | Checkbox | Date

  datatype RuleKind = Required | MinLength | MaxLength | Email | Password | Custom

  /** The parameter a rule may carry (`value?: string | number`). */
  datatype RuleParam = ParamText(text: string) | ParamNum(num: int)

  datatype ValidationRule = ValidationRule(kind: RuleKind, param: Option<RuleParam>, message: string)

  /** A field value in a preview session (`string | number | boolean`); numbers are integers. */
  datatype Value = Str(s: string) | Num(n: int) | Bool(b: bool)

  /**
   One field definition. The optional arrays `parentFields` and `options` are
   plain sequences: an absent array and an empty one behave the same everywhere
   they are read.
   */
  datatype FormField = FormField(
    id: string,
    fieldType: FieldType,
    labelText: string,
    required: bool,
    defaultValue: Option<Value>,
    rules: seq<ValidationRule>,
    isDerived: bool,
    parentFields: seq<string>,
    derivedFormula: Option<string>,
    options: seq<string>,
    order: int)

  datatype Form = Form(id: string, name: string, fields: seq<FormField>, createdAt: string)

  /** The store slice: the form being edited or previewed, the saved forms, the preview flag. */
  datatype State = State(currentForm: Option<Form>, savedForms: seq<Form>, isPreviewMode: bool)

  /**
   `Partial<FormField>`: `None` is a missing key. For the members that are
   themselves optional, `Some(None)` is a key present with value `undefined`,
   which object spread copies over the old value.
   */
  datatype FieldPatch = FieldPatch(
    id: Option<string>,
    fieldType: Option<FieldType>,
    labelText: Option<string>,
    required: Option<bool>,
    defaultValue: Option<Option<Value>>,
    rules: Option<seq<ValidationRule>>,
    isDerived: Option<bool>,
    parentFields: Option<seq<string>>,
    derivedFormula: Option<Option<string>>,
    options: Option<seq<string>>,
    order: Option<int>)

  /** `{ ...f, ...patch }`: every key present in the patch overrides the field's member. */
  function Merge(f: FormField, patch: FieldPatch): FormField {
    FormField(
      patch.id.GetOr(f.id),
      patch.fieldType.GetOr(f.fieldType),
      patch.labelText.GetOr(f.labelText),
      patch.required.GetOr(f.required),
      patch.defaultValue.GetOr(f.defaultValue),
      patch.rules.GetOr(f.rules),
      patch.isDerived.GetOr(f.isDerived),
      patch.parentFields.GetOr(f.parentFields),
      patch.derivedFormula.GetOr(f.derivedFormula),
      patch.options.GetOr(f.options),
      patch.order.GetOr(f.order))
  }

  /** A whole field seen as a partial one: every key present. */
  function AsPatch(f: FormField): FieldPatch {
    FieldPatch(Some(f.id), Some(f.fieldType), Some(f.labelText), Some(f.required), Some(f.defaultValue),
      Some(f.rules), Some(f.isDerived), Some(f.parentFields), Some(f.derivedFormula), Some(f.options), Some(f.order))
  }

  /** The patch with no keys. */
  const EmptyPatch := FieldPatch(None, None, None, None, None, None, None, None, None, None, None)

  /** Merging a whole field replaces the old one; merging nothing keeps it. */
  lemma MergeLaws(f: FormField, g: FormField)
    ensures Merge(f, AsPatch(g)) == g
    ensures Merge(f, EmptyPatch) == f
  {
  }

  /** Field ids are unique within a form. */
  predicate UniqueIds(fields: seq<FormField>) {
    forall i, j :: 0 <= i < j < |fields| ==> fields[i].id != fields[j].id
  }

  /** Every field's `order` is its position in the list. */
  predicate OrdersArePositions(fields: seq<FormField>) {
    forall i :: 0 <= i < |fields| ==> fields[i].order == i
  }

  /** Sets every field's `order` to its position: `fields.map((f, index) => ({ ...f, order: index }))`. */
  function Reindex(fields: seq<FormField>): (r: seq<FormField>)
    ensures |r| == |fields|
    ensures OrdersArePositions(r)
    ensures forall i :: 0 <= i < |r| ==> r[i] == fields[i].(order := i)
  {
    seq(|fields|, i requires 0 <= i < |fields| => fields[i].(order := i))
  }

  /** Reindexing a list whose orders already match positions changes nothing. */
  lemma ReindexIdempotent(fields: seq<FormField>)
    requires OrdersArePositions(fields)
    ensures Reindex(fields) == fields
  {
  }
}

=== FILE: validation.dfy ===
/**
 The field validator of the preview page: a field's rules, taken in the order
 they were declared, each contribute zero or more messages for a candidate value.
 The value may be missing (the key is absent from the value map).
 */
module Validation {
  import opened Common
  import opened Strings
  import opened Types

  const RequiredDefault := "This field is required"
  const EmailDefault := "Please enter a valid email address"
  const PasswordTooShort := "Password must be at least 8 characters long"
  const PasswordNoDigit := "Password must contain at least one number"

  /** JavaScript truthiness of a possibly missing value: `undefined`, `''`, `0` and `false` are falsy. */
  predicate Truthy(v: Option<Value>) {
    match v
    case None => false
    case Some(Str(s)) => s != ""
    case Some(Num(n)) => n != 0
    case Some(Bool(b)) => b
  }

  /** `String(v)`: the text a regular expression test sees for a value. */
  function ToText(v: Value): string {
    match v
    case Str(s) => s
    case Num(n) => IntToString(n)
    case Bool(b) => if b then "true" else "false"
  }

  /** `${rule.value}`: the parameter as it is interpolated into a default message. */
  function ParamShown(p: Option<RuleParam>): string {
    match p
    case None => "undefined"
    case Some(ParamText(t)) => t
    case Some(ParamNum(n)) => IntToString(n)
  }

  /** `Number(rule.value)`; `None` stands for NaN, which makes every comparison false. */
  function ParamNumber(p: Option<RuleParam>): Option<int> {
    match p
    case None => None
    case Some(ParamText(t)) => ParseInteger(t)
    case Some(ParamNum(n)) => Some(n)
  }

  /** `rule.message || fallback`: a configured message wins unless it is empty. */
  function MessageOr(message: string, fallback: string): string {
    if message == "" then fallback else message
  }

  /** Positions `lo` to `hi` (exclusive) of `s` form a run of the class `[^\s@]+`: non-empty, no whitespace, no `@`. */
  predicate PlainRun(s: string, lo: int, hi: int)
    requires 0 <= lo <= hi <= |s|
  {
    lo < hi && forall k :: lo <= k < hi ==> !IsWhitespace(s[k]) && s[k] != '@'
  }

  /** `s` splits at an `@` at `i` and a `.` at `j` into three runs of `[^\s@]+`. */
  predicate EmailSplit(s: string, i: int, j: int) {
    && 0 <= i < j < |s| && s[i] == '@' && s[j] == '.'
    && PlainRun(s, 0, i) && PlainRun(s, i + 1, j) && PlainRun(s, j + 1, |s|)
  }

  /**
   The test `/^[^\s@]+@[^\s@]+\.[^\s@]+$/.test(s)`: the string splits into a run,
   `@`, a run, `.`, a run.
   */
  predicate MatchesEmailPattern(s: string) {
    exists i, j | 0 <= i < j < |s| :: EmailSplit(s, i, j)
  }

  /**
   An email address read as a single left-to-right scan: no whitespace at all,
   exactly one `@` which is not the first character, and after it a `.` with at
   least one character on each side.
   */
  predicate IsEmailAddress(s: string) {
    && (forall k :: 0 <= k < |s| ==> !IsWhitespace(s[k]))
    && match IndexOf(s, '@')
       case None => false
       case Some(at) =>
         && at > 0
         && (forall k :: at < k < |s| ==> s[k] != '@')
         && exists k :: at + 1 < k < |s| - 1 && s[k] == '.'
  }

  /** The pattern and the scan accept the same strings. */
  lemma EmailPatternIsScan(s: string)
    ensures MatchesEmailPattern(s) <==> IsEmailAddress(s)
  {
    if MatchesEmailPattern(s) {
      PatternGivesScan(s);
    }
    if IsEmailAddress(s) {
      ScanGivesPattern(s);
    }
  }

  lemma PatternGivesScan(s: string)
    requires MatchesEmailPattern(s)
    ensures IsEmailAddress(s)
  {
    var i, j :| EmailSplit(s, i, j);
    SplitHasNoSpace(s, i, j);
    SplitHasOneAt(s, i, j);
    assert i + 1 < j < |s| - 1 && s[j] == '.';
  }

  lemma SplitHasNoSpace(s: string, i: int, j: int)
    requires EmailSplit(s, i, j)
    ensures forall k :: 0 <= k < |s| ==> !IsWhitespace(s[k])
  {
    forall k | 0 <= k < |s| ensures !IsWhitespace(s[k]) {
      if k != i && k != j {
        assert k < i || i < k < j || j < k;
      }
    }
  }

  lemma SplitHasOneAt(s: string, i: int, j: int)
    requires EmailSplit(s, i, j)
    ensures IndexOf(s, '@') == Some(i)
    ensures forall k :: i < k < |s| ==> s[k] != '@'
  {
    assert forall k :: 0 <= k < i ==> s[k] != '@';
  }

  lemma ScanGivesPattern(s: string)
    requires IsEmailAddress(s)
    ensures MatchesEmailPattern(s)
  {
    var i := IndexOf(s, '@').value;
    var j :| i + 1 < j < |s| - 1 && s[j] == '.';
    assert PlainRun(s, 0, i);
    assert PlainRun(s, i + 1, j);
    assert PlainRun(s, j + 1, |s|);
    assert EmailSplit(s, i, j);
  }

  /** The messages one rule contributes for a value. */
  function RuleMessages(rule: ValidationRule, v: Option<Value>): (r: seq<string>)
    ensures |r| <= 2
  {
    match rule.kind
    case Required =>
      if !Truthy(v) || (v.Some? && v.value.Str? && Trim(v.value.s) == "") then
        [MessageOr(rule.message, RequiredDefault)]
      else []
    case MinLength =>
      if v.Some? && v.value.Str? && ParamNumber(rule.param).Some? && |v.value.s| < ParamNumber(rule.param).value then
        [MessageOr(rule.message, "Minimum length is " + ParamShown(rule.param) + " characters")]
      else []
    case MaxLength =>
      if v.Some? && v.value.Str? && ParamNumber(rule.param).Some? && |v.value.s| > ParamNumber(rule.param).value then
        [MessageOr(rule.message, "Maximum length is " + ParamShown(rule.param) + " characters")]
      else []
    case Email =>
      if Truthy(v) && !MatchesEmailPattern(ToText(v.value)) then [MessageOr(rule.message, EmailDefault)] else []
    case Password =>
      if Truthy(v) then
        // `value.length` is undefined for a number or boolean, and `undefined < 8` is false
        (if v.value.Str? && |v.value.s| < 8 then [PasswordTooShort] else [])
        + (if !HasDigit(ToText(v.value)) then [PasswordNoDigit] else [])
      else []
    case Custom => []
  }

  /** The messages of a rule list, in declaration order. */
  function RulesMessages(rules: seq<ValidationRule>, v: Option<Value>): (r: seq<string>)
    ensures |r| <= 2 * |rules|
    ensures r == [] <==> forall i :: 0 <= i < |rules| ==> RuleMessages(rules[i], v) == []
  {
    if |rules| == 0 then []
    else
      var r := RuleMessages(rules[0], v) + RulesMessages(rules[1..], v);
      assert forall i :: 1 <= i < |rules| ==> rules[i] == rules[1..][i - 1];
      r
  }

  /** `validateField(field, value)`. */
  function ValidateField(field: FormField, v: Option<Value>): (r: seq<string>)
    ensures |field.rules| == 0 ==> r == []
    ensures r == [] <==> forall i :: 0 <= i < |field.rules| ==> RuleMessages(field.rules[i], v) == []
  {
    RulesMessages(field.rules, v)
  }

  /** Messages come out in rule declaration order: validating a split rule list concatenates. */
  lemma {:induction false} RulesMessagesConcat(a: seq<ValidationRule>, b: seq<ValidationRule>, v: Option<Value>)
    ensures RulesMessages(a + b, v) == RulesMessages(a, v) + RulesMessages(b, v)
  {
    if |a| == 0 {
      assert a + b == b;
    } else {
      assert (a + b)[0] == a[0];
      assert (a + b)[1..] == a[1..] + b;
      RulesMessagesConcat(a[1..], b, v);
    }
  }

  /** A custom rule never contributes a message, so adding one anywhere changes nothing. */
  lemma CustomRuleSilent(a: seq<ValidationRule>, b: seq<ValidationRule>, p: Option<RuleParam>, message: string, v: Option<Value>)
    ensures RulesMessages(a + [ValidationRule(Custom, p, message)] + b, v) == RulesMessages(a + b, v)
  {
    var c := ValidationRule(Custom, p, message);
    RulesMessagesConcat(a + [c], b, v);
    RulesMessagesConcat(a, [c], v);
    RulesMessagesConcat(a, b, v);
  }

  /**
   A required rule reports exactly when the value is missing, `''`, `0`, `false`,
   or a string made only of whitespace; it reports its own message when one is
   configured and the built-in one otherwise.
   */
  lemma RequiredRule(rule: ValidationRule, v: Option<Value>)
    requires rule.kind == Required
    ensures RuleMessages(rule, v) != [] <==>
      || v.None? || v == Some(Str("")) || v == Some(Num(0)) || v == Some(Bool(false))
      || (v.Some? && v.value.Str? && AllWhitespace(v.value.s))
    ensures RuleMessages(rule, v) != [] && rule.message != "" ==> RuleMessages(rule, v) == [rule.message]
    ensures RuleMessages(rule, v) != [] && rule.message == "" ==> RuleMessages(rule, v) == ["This field is required"]
  {
  }

  /**
   A length rule reports only for a string value and a numeric parameter: the
   minimum when the string is strictly shorter, the maximum when strictly longer.
   */
  lemma LengthRules(rule: ValidationRule, v: Option<Value>)
    requires rule.kind == MinLength || rule.kind == MaxLength
    ensures RuleMessages(rule, v) != [] <==>
      && v.Some? && v.value.Str? && ParamNumber(rule.param).Some?
      && (if rule.kind == MinLength then |v.value.s| < ParamNumber(rule.param).value
          else |v.value.s| > ParamNumber(rule.param).value)
  {
  }

  /**
   The bounds are inclusive: a string whose length is exactly the parameter,
   given as a number or as its decimal text, passes both length rules.
   */
  lemma LengthBoundsInclusive(s: string, message: string)
    ensures RuleMessages(ValidationRule(MinLength, Some(ParamNum(|s|)), message), Some(Str(s))) == []
    ensures RuleMessages(ValidationRule(MaxLength, Some(ParamNum(|s|)), message), Some(Str(s))) == []
    ensures RuleMessages(ValidationRule(MinLength, Some(ParamText(IntToString(|s|))), message), Some(Str(s))) == []
    ensures RuleMessages(ValidationRule(MaxLength, Some(ParamText(IntToString(|s|))), message), Some(Str(s))) == []
  {
    var n := |s|;
    assert ParamNumber(Some(ParamText(IntToString(n)))) == Some(n) by {
      IntToStringRoundTrip(n);
    }
    LengthBoundAt(ValidationRule(MinLength, Some(ParamNum(n)), message), s);
    LengthBoundAt(ValidationRule(MaxLength, Some(ParamNum(n)), message), s);
    LengthBoundAt(ValidationRule(MinLength, Some(ParamText(IntToString(n))), message), s);
    LengthBoundAt(ValidationRule(MaxLength, Some(ParamText(IntToString(n))), message), s);
  }

  lemma LengthBoundAt(rule: ValidationRule, s: string)
    requires rule.kind == MinLength || rule.kind == MaxLength
    requires ParamNumber(rule.param) == Some(|s|)
    ensures RuleMessages(rule, Some(Str(s))) == []
  {
    LengthRules(rule, Some(Str(s)));
  }

  /** The email rule skips falsy values; a non-empty string fails exactly when it is not an address. */
  lemma EmailRule(rule: ValidationRule, v: Option<Value>)
    requires rule.kind == Email
    ensures !Truthy(v) ==> RuleMessages(rule, v) == []
    ensures v.Some? && v.value.Str? && v.value.s != "" ==>
      (RuleMessages(rule, v) != [] <==> !IsEmailAddress(v.value.s))
  {
    if v.Some? && v.value.Str? {
      EmailPatternIsScan(v.value.s);
    }
  }

  lemma EmailAccepted(rule: ValidationRule)
    requires rule.kind == Email
    ensures RuleMessages(rule, Some(Str("a@b.co"))) == []
  {
    var s := "a@b.co";
    assert PlainRun(s, 0, 1) && PlainRun(s, 2, 3) && PlainRun(s, 4, 6);
    assert s[1] == '@' && s[3] == '.';
    assert EmailSplit(s, 1, 3);
  }

  lemma EmailRejected(rule: ValidationRule)
    requires rule.kind == Email
    ensures RuleMessages(rule, Some(Str("not-an-email"))) == [MessageOr(rule.message, EmailDefault)]
  {
    var s := "not-an-email";
    assert forall k :: 0 <= k < |s| ==> s[k] != '@';
    assert !MatchesEmailPattern(s);
  }

  /**
   The password rule on a non-empty string reports the length message exactly
   when it has fewer than 8 characters and the digit message exactly when it has
   no digit, in that order; its configured message is never used.
   */
  lemma PasswordRule(rule: ValidationRule, s: string)
    requires rule.kind == Password && s != ""
    ensures RuleMessages(rule, Some(Str(s))) ==
      (if |s| < 8 then [PasswordTooShort] else []) + (if HasDigit(s) then [] else [PasswordNoDigit])
    ensures forall message :: RuleMessages(rule.(message := message), Some(Str(s))) == RuleMessages(rule, Some(Str(s)))
  {
  }

  lemma PasswordExamples(rule: ValidationRule)
    requires rule.kind == Password
    ensures RuleMessages(rule, Some(Str("abc"))) == [PasswordTooShort, PasswordNoDigit]
    ensures RuleMessages(rule, Some(Str("abcdefgh"))) == [PasswordNoDigit]
    ensures RuleMessages(rule, Some(Str("abcd1234"))) == []
    ensures RuleMessages(rule, None) == [] && RuleMessages(rule, Some(Str(""))) == []
  {
    assert !HasDigit("abc");
    assert !HasDigit("abcdefgh");
    assert IsDigit("abcd1234"[4]);
  }
}
